=== FILE: README.md ===
# hax corrections and cuts, modelled in Dafny

This project models two parts of the `hax` analysis package for XENON1T data:

- **The per-event correction cascade of the `Corrections` tree maker**
  (`hax/treemakers/corrections.py`). It covers the following steps:
  - Resolve which calibration resource applies to a run. A run-range validity list from the configuration decides (`get_correction`).
  - Keep five interpolation-map slots current, reloading a map only when the resolved name changes (`load_map` and the five slot updates).
  - Pick the electron-lifetime multiplier. The source is either simulated data, a time interpolant, or nothing.
  - Correct the S2 area with the xy efficiency maps and the lifetime.
  - Move the top-pattern-fit (TPF) position with the 2D field-distortion map.
  - Move both reconstructed positions (neural net and TPF) with the 3D map. This step includes the degenerate branch that projects z.
  - Correct the S1 area with two light-collection maps.
- **The cut bookkeeping of `hax/cuts.py`**:
  - `selection` and `cut` with their per-frame cut history;
  - the skipping of a named cut that was already applied;
  - `range_selection`, `range_cut` and `range_selections`;
  - the `history` table.

Foreign code is passed in as parameters:
- `np.sqrt`, `np.exp`, the map loader's file lookup and `InterpolatingMap.get_value` are fields of `Cascade.Env`;
- the lifetime interpolant is a field of `Lifetime.Session` (it answers `None` where `interp1d` raises);
- the rendering of a bound by `%s` is the `show` argument of `Cuts.RangeDesc`.

An `InterpolatingMap` is represented by its file name.

A validity entry may lack the `correction` key or hold an explicit `None` there (`Registry.Null`). These two cases behave differently. A missing key lets the scan go on to later entries. An explicit `None` stops the scan, and `get_correction` returns `None` just as when no entry matches.

Each Python exception on a modelled path becomes an `Errors.Error` value:

| Error | Python failure |
|---|---|
| `MapLoadFailed` | loading an unresolvable or missing file |
| `MapNotLoaded` | `get_value` on a slot holding `None` |
| `PeakMissing` | a bad peak index |
| `LifetimeNotNumeric`, `LifetimeZero`, `LifetimeOutOfRange` | the three lifetime failures |
| `NeuralNetPositionMissing` | the `KeyError` for a missing neural-net position |
| `NoCutHistory` | `ValueError` from `history` |

`ExtractData` returns the updated map slots even when a later step fails, just as the instance attributes keep their new maps when Python raises.

The module-level `CUT_HISTORY` dictionary becomes a `Cuts.CutState` value threaded through every call. The `id()` of a frame becomes a `Cuts.Handle` drawn from a counter, so a handle is never reused.

The docstring of `range_selection` says `bounds[0] <= d[axis] < bounds[1]`, and the default description prints a half-open interval. The code uses `>` for the lower bound, and the model follows the code: both bounds are strict.

## Model

| member | source | states |
|---|---|---|
| Registry.FirstMatch | hax/treemakers/corrections.py:113-119 | The scan from position `i` returns the first entry at or after `i` that has `run_min <= run`, is within `run_max` (or has none), and carries a correction. It returns `None` exactly when no such entry exists. |
| Registry.Resolve | hax/treemakers/corrections.py:113-119 | The resolved value is `None` iff no entry qualifies; otherwise it is the payload of the first qualifying entry. |
| Registry.GetCorrection | hax/treemakers/corrections.py:107-119 | An unconfigured table or name gives `None`. Otherwise the result is `None` iff no entry of the name qualifies or the first qualifying one holds an explicit `None`. Any other result is the first qualifying entry's payload. |
| Registry.ResolveIsFirstQualifying | hax/treemakers/corrections.py:113-119 | Any entry that qualifies with no qualifying entry before it is the one whose correction is returned. |
| Registry.NonQualifyingEntryIsTransparent | hax/treemakers/corrections.py:114-118 | Deleting any entry that does not qualify for the run leaves the resolved value unchanged. |
| Registry.MissingRunMinNeverResolves | hax/treemakers/corrections.py:114-115 | An entry without `run_min` is never the one returned, whatever its other keys. |
| Registry.PayloadlessMatchContinuesScan | hax/treemakers/corrections.py:116-119 | On a concrete list, an in-range entry without a payload lets the scan continue to a later entry. A list whose only entry lacks `run_min` resolves to `None`. |
| Registry.ExplicitNoneStopsScan | hax/treemakers/corrections.py:116-118 | On a concrete list, an in-range entry whose `correction` is an explicit `None` stops the scan: the later entry's map is never reached, and the caller sees `None`. |
| MapCache.LoadMap | hax/treemakers/corrections.py:121-127 | A slot whose name equals the resolved one is returned untouched with no load. Otherwise exactly one load happens, and the slot then holds the map of the resolved name, with that name recorded. Failure happens exactly when the resolved name cannot be loaded. Slot consistency is preserved. |
| MapCache.Set | hax/treemakers/corrections.py:148-170 | Writing one category's slot leaves the other four slots unchanged. |
| MapCache.RefreshSlot | hax/treemakers/corrections.py:148-170 | One slot update changes only its own slot. Afterwards that slot is current. A load happened iff the slot was stale. A current slot is left untouched. |
| MapCache.RefreshAll | hax/treemakers/corrections.py:147-170 | Running the slot updates in order leaves unlisted slots unchanged. Without error, every listed slot is current and the number of loads equals the number of stale slots. |
| MapCache.RefreshFailureStopsAtOneSlot | hax/treemakers/corrections.py:147-170 | The slot updates fail iff there is a position `k` where the following holds. Every slot before `k` is now current. Slot `k` and every later slot are untouched. Slot `k` was stale and its resolved name cannot be loaded. The error names that correction. The loads equal the stale slots before `k`. |
| MapCache.RefreshOfCurrentIsNoOp | hax/treemakers/corrections.py:123-127 | When every listed slot is current, the updates change nothing and load nothing. |
| MapCache.SecondRefreshLoadsNothing | hax/treemakers/corrections.py:147-170 | Right after a successful refresh, a second refresh for the same run loads no map. |
| MapCache.InitialCachesConsistent | hax/treemakers/corrections.py:96-105 | The initial slots, every map and name `None`, are consistent and all empty. |
| Lifetime.LifetimeFactor | hax/treemakers/corrections.py:202-217 | With no simulated data and no interpolant, the multiplier is exactly 1 with no `ts`. For simulated data, success holds iff a non-zero number is configured, and the multiplier is `exp(drift/1000/lifetime)`. A missing or non-numeric value raises `LifetimeNotNumeric`, and a zero raises `LifetimeZero`. With an interpolant, success holds iff it answers a non-zero lifetime at the run start, and `ts` is the run start. No answer raises `LifetimeOutOfRange` at the run start, and a zero raises `LifetimeZero`. |
| Lifetime.McIgnoresInterpolation | hax/treemakers/corrections.py:203-208 | For simulated data the interpolant never affects the result. |
| Geometry.Observe | hax/treemakers/corrections.py:179-184 | The observed position keeps `x` and `y`, and its `r` is the non-negative root of `x² + y²`. |
| Geometry.ScaleTo | hax/treemakers/corrections.py:239-241 | Scaling by `r / r_observed` keeps the direction (`x·y_obs = y·x_obs`), gives `x·r_obs = r·x_obs` and the same for `y`, and puts the point on the circle of radius `r`. |
| Geometry.ZProjection | hax/treemakers/corrections.py:257-260 | When `|z| <= |dr|`, z is unchanged. Otherwise the result is non-positive and its square is `z² − dr²`. |
| Geometry.ZeroShiftFoldsOntoNegativeAxis | hax/treemakers/corrections.py:257-258 | With a zero radial shift, the 3D branch maps every `z` to `−|z|`: a positive z changes sign, and a negative or zero one is unchanged. |
| Cascade.LastIndex | hax/treemakers/corrections.py:175-187 | The position used is the last record of its algorithm: it matches, and no later record matches. `None` means no record matches. |
| Cascade.CorrectS2 | hax/treemakers/corrections.py:193-229 | Each xy multiplier times its map value is 1, and the lifetime is copied. `cs2 · map_total = area · lifetime`. `cs2_top · map_top = area · fraction_top · lifetime`, and `cs2_bottom · map_bottom = area · (1 − fraction_top) · lifetime`. Equal maps give `cs2_top + cs2_bottom = cs2`. |
| Cascade.ApplyFdc2d | hax/treemakers/corrections.py:236-242 | `r = r_obs + dr` and `z = z_obs + dz`, and `(x, y)` is the observed point moved radially to radius `r`. |
| Cascade.ApplyFdc3d | hax/treemakers/corrections.py:246-262 | The point moves radially to `r_obs + dr`, with the z branch of the projection, and `zcorr = z3d − z_obs`. |
| Cascade.CorrectS1 | hax/treemakers/corrections.py:265-269 | The multiplier times the map value is 1, and the corrected area is the area times the multiplier. |
| Cascade.CorrectEnergy | hax/treemakers/corrections.py:193-229 | The S2 step succeeds iff the xy slot holds a map and the lifetime step succeeds. An empty xy slot raises its `MapNotLoaded` first. Otherwise a lifetime failure raises the lifetime step's own error. The lifetime multiplier and `ts` are the selected ones. Each multiplier inverts that slot's map, read at the TPF `(x, y)` with the sub-map `None`, `top` or `bottom`, and each corrected area satisfies the product above with that map value. |
| Cascade.CorrectPositions | hax/treemakers/corrections.py:236-262 | The position step succeeds iff both distortion slots hold maps and a neural-net record exists. Otherwise the error is, in this order, the 2D slot's `MapNotLoaded`, the 3D slot's, or `NeuralNetPositionMissing`. The 2D deltas are the 2D map's `to_true_r` and `to_true_z` at the TPF `(r, z_observed)`. Each 3D delta is the 3D map at that algorithm's observed `(x, y, z_observed)`. The corrected positions follow these deltas as in `ApplyFdc2d` and `ApplyFdc3d`. |
| Cascade.CorrectLight | hax/treemakers/corrections.py:265-269 | The S1 step succeeds iff both light-collection slots hold maps; otherwise the TPF slot's `MapNotLoaded` comes before the neural-net slot's. The TPF multiplier inverts its map at the 2D-corrected `(x, y, z)`. The neural-net multiplier inverts its map at the 3D-corrected neural-net `(x, y, z)`. Each corrected S1 is the area times its multiplier. |
| Cascade.Correct | hax/treemakers/corrections.py:172-269 | On current slots, the cascade succeeds iff every slot holds a map, the lifetime step succeeds and a neural-net record exists. A failure raises exactly `CascadeError`, the first failing step in source order. On success, the observed positions, `z_observed`, the lifetime multiplier and `ts` come from the event and the lifetime step. Every map-derived field is read from the map in its own slot, with the sub-map and coordinates stated for the three steps above. |
| Cascade.CascadeError | hax/treemakers/corrections.py:193-268 | The exception is, in order: the xy slot's, the lifetime step's, the 2D and 3D distortion slots', the missing neural-net record, then the two light-collection slots'. None is raised iff every slot holds a map, the lifetime step succeeds and a neural-net record exists. |
| Cascade.ExtractData | hax/treemakers/corrections.py:129-271 | An event without interactions gives an empty result with no loads. A bad S2 index fails before the S1 index is looked at, and neither loads a map. Otherwise the slots and loads are those of the five updates in source order. A failing load is the outcome, and the slots updated before it are kept. After a successful refresh, a failure is the `CascadeError` of the refreshed slots. Current slots are never reloaded. On success all five slots are current after exactly as many loads as were stale, and every field is read from the right map. |
| Cascade.RefreshAndCorrect | hax/treemakers/corrections.py:147-269 | The five updates, then the cascade. The slots and load count are the updates' own. A load failure is the outcome; otherwise a failure is the `CascadeError` of the refreshed slots. Success means every slot is current and the fields are the cascade on the refreshed slots. |
| Cascade.RefreshOfCurrentIsNoOpAll | hax/treemakers/corrections.py:147-170 | Refreshing the five slots in source order when all are current is a no-op. |
| Cascade.NeutralCorrectionsAreIdentity | hax/treemakers/corrections.py:193-269 | Suppose the efficiency maps are 1 everywhere, the 2D shift is zero and there is no lifetime source. Then a successful extraction leaves `cs2`, `cs2_top`, `cs2_bottom`, both `cs1`s and the 2D-corrected position equal to their raw values. |
| Cascade.NeutralCorrect | hax/treemakers/corrections.py:193-269 | The same identity for the cascade on slots that hold neutral maps. It follows from what each field reads from its map. |
| Masks.KeepIsPickOfTrueIndices | hax/cuts.py:69 | `d[bools]` is exactly the rows at the true positions, in their original order. |
| Masks.KeepAndNegationPartition | hax/cuts.py:80-82 | A mask and `True ^ mask` split the rows between them, as multisets. |
| Masks.KeepMaskIsFilter | hax/cuts.py:112-120 | Masking by a predicate's values keeps exactly the rows satisfying it, in order. |
| Cuts.Selection | hax/cuts.py:31-77 | A named cut already in the frame's history, without `force_repeat`, returns the frame untouched. Otherwise the result is a new frame of the rows at the true positions, in order, with `n_after <= n_before`. Its history is the input's plus one record, and no earlier history changes. |
| Cuts.SelectionKeepsHistoriesChained | hax/cuts.py:69-75 | Every history stays non-empty and decreasing, and each record starts where the previous one ended. |
| Cuts.NamedCutIsNotRepeated | hax/cuts.py:58-66 | Repeating a named cut on its own result, without `force_repeat`, changes nothing. |
| Cuts.UnnamedIsAlwaysPerformed | hax/cuts.py:58 | 'Unnamed' cuts are never skipped: two in a row give two new frames and two records. |
| Cuts.Cut | hax/cuts.py:80-82 | A named cut already recorded, without `force_repeat`, returns the frame and state untouched. Otherwise `cut` keeps exactly the rows whose mask entry is false, in order, and `n_after = n_before − (true entries)`. The result is a fresh frame whose history is the input's plus the record `(desc, n_before, n_after)`. Every existing history is unchanged, and no frame other than the result gains one. |
| Cuts.CutComplementsSelection | hax/cuts.py:80-82 | On the same frame and mask, the selection and the cut share out the rows and their counts. |
| Cuts.RangeDesc | hax/cuts.py:116-119 | A caller's description is kept as given. The default is the axis name, then ` NOT in [` when inverted (` in [` otherwise), then `lo, hi)`. |
| Cuts.DefaultRangeDescsDiffer | hax/cuts.py:116-119 | The inverted default description and the plain one differ for every axis and bounds. |
| Cuts.RangeSelection | hax/cuts.py:112-120 | A repeat of a named cut returns the frame and state untouched. Otherwise the kept rows are those with `lo < v < hi`, both bounds strict, in a fresh frame. Its history is the input's plus one record, carrying the caller's description or the default one. Existing histories are unchanged, and no other frame gains one. |
| Cuts.RangeCut | hax/cuts.py:123-126 | `range_cut` records the inverted default description (` NOT in [`), which differs from the selection's. Unless skipped as a repeat, it keeps the rows inside the range, because `_invert` is never read. With a given description the result equals the plain range selection. Existing histories are unchanged, no frame other than the result gains one, and every handle stays issued. |
| Cuts.RangeCutKeepsTheRange | hax/cuts.py:123-126 | On the values 1 and 5 with bounds (0, 2), `range_cut` keeps 1. |
| Cuts.RangeCutInverted | hax/cuts.py:123-126 | The corrected cut keeps exactly the rows outside the range. |
| Cuts.StepDesc | hax/cuts.py:136-141 | A given description gets ` (axis)` appended, and no description stays absent. |
| Cuts.StepDescs | hax/cuts.py:136-142 | The `k`-th step's description is the range description of the `k`-th range, with the per-step `desc`. |
| Cuts.RangeSelections | hax/cuts.py:129-143 | Every handle stays issued, and existing histories are unchanged. The only frames that gain a history are ones the steps create, with handles from `st.next` on. With `force_repeat`, the steps applied left to right keep exactly the rows inside every range. The history is then the input frame's followed by one record per range, in order, each described as `desc + " (axis)"`, or by that range's default description when no `desc` is given. |
| Cuts.RangeSelectionsKeepHistoriesChained | hax/cuts.py:129-143 | The multi-range selection keeps every history chained. |
| Cuts.History | hax/cuts.py:19-28 | It fails iff the frame has no history. Otherwise there is one row per record, with `n_removed = n_before − n_after`, never negative in a valid state. |
| Cuts.HistoryAccountsForEveryRow | hax/cuts.py:19-28 | The `n_removed` column sums to the first record's `n_before` minus the frame's row count. |

## Left out

- The `InterpolatingMap` internals and `data_file_name`: a map is its file name, and `get_value` is the `Env.mapValue` parameter.
- The numerics of `np.sqrt` and `np.exp`: they are parameters. `np.sqrt` is only assumed to return the non-negative root.
- Infinities and NaNs from numpy: dividing by a zero map value or by a zero observed radius is excluded by preconditions (`DivisorsNonZero`, `EfficiencyMapsNonZero`, `OffAxis`).
- Cascade.CorrectS2 and Cascade.CorrectS1: the multipliers are stated as inverses of the map values rather than computed as floating-point divisions.
- Lifetime.LifetimeFactor: a zero lifetime is reported as `LifetimeZero`. For an interpolated lifetime, numpy would instead produce an infinite multiplier, and reals have no infinity.
- A missing TPF position: the source then fails on an unbound local variable. The model makes its presence a precondition (`PositionsUsable`).
- `largest_other_s2` and `get_largest_indices`: they compute a blinding-cut helper field that no other field uses.
- Reading the lifetime document inside `try`/`except` when the class is defined: it appears as `Session.elifeInterpolation` being present or absent.
- The `self.electron_lifetime` assignment, `extra_metadata`, and the `TreeMaker` plumbing: none of these affect any field.
- The scalar conversion from `np.datetime64` to seconds: `Session.runStartSeconds` is already in seconds.
- `hax.config`: it is the `Registry.Config` value.
- `print` and `log.debug` in `selection`, `quiet`, and the `ZeroDivisionError` that the printed message raises for an empty frame when not quiet: the model is the quiet path.
- `return_passthrough_info`: the model always returns the counts alongside the frame.
- The `fraction_passed` and `cumulative_fraction_left` columns of `history`: these are floating-point ratios.
- `notnan`, `isfinite`, `above`, `below` and `range_cuts`: these are thin wrappers outside the modelled core.
- Reuse of an `id()` after a frame is garbage-collected: handles are never reused.
- Cuts.RangeSelections: the kept rows and the per-step records are stated only for `force_repeat`. Without it, any step can be skipped by an earlier record of the same description, so which ranges apply depends on the frame's history.

## Findings

| source | as written | input that shows it | evidently intended | confidence | as-written member | corrected member |
|---|---|---|---|---|---|---|
| hax/cuts.py:123-126 | `range_cut` sets `_invert`, which `selection` accepts but never reads, so the rows inside the range are kept | values 1 and 5, bounds (0, 2): `range_cut` keeps 1 and records the description "x NOT in [0, 2)" | remove the rows inside the range, as the docstring and the description say | high (reading of the code), not executed | Cuts.RangeCutKeepsTheRange | Cuts.RangeCutInverted |

=== FILE: cascade.dfy ===
/** The per-event correction cascade of `Corrections.extract_data`. */
module Cascade {
  import opened Wrappers
  import opened Errors
  import opened Registry
  import opened MapCache
  import opened Lifetime
  import opened Geometry

  /** The `map_name` argument of `InterpolatingMap.get_value`. */
  datatype SubMap = DefaultMap | MapTop | MapBottom | ToTrueR | ToTrueZ

  /** The foreign code the cascade calls: `np.sqrt`, `np.exp`, whether the map
      loader can open a file, and the value a map file gives at a point. */
  datatype Env = Env(
    sqrt: real -> real,
    exp: real -> real,
    available: string -> bool,
    mapValue: (string, SubMap, seq<real>) -> real)

  datatype RecPosition = RecPosition(algorithm: string, x: real, y: real)

  datatype Peak = Peak(area: real, areaFractionTop: real, positions: seq<RecPosition>)

  /** An interaction: its S1 and S2 peak indices, the reported (already
      corrected) z with the correction applied to it, and the drift time. */
  datatype Interaction = Interaction(s1: nat, s2: nat, z: real, zCorrection: real, driftTime: real)

  datatype Event = Event(interactions: seq<Interaction>, peaks: seq<Peak>)

  const NeuralNet := "PosRecNeuralNet"
  const TopPatternFit := "PosRecTopPatternFit"

  /** The index of the last record of `algorithm`: the loop over
      `reconstructed_positions` overwrites earlier matches. */
  function LastIndex(ps: seq<RecPosition>, algorithm: string): (r: Option<nat>)
    ensures r.None? <==> forall i :: 0 <= i < |ps| ==> ps[i].algorithm != algorithm
    ensures r.Some? ==> r.value < |ps| && ps[r.value].algorithm == algorithm
    ensures r.Some? ==> forall j :: r.value < j < |ps| ==> ps[j].algorithm != algorithm
  {
    if |ps| == 0 then None
    else if ps[|ps| - 1].algorithm == algorithm then Some(|ps| - 1)
    else LastIndex(ps[..|ps| - 1], algorithm)
  }

  function LastPosition(ps: seq<RecPosition>, algorithm: string): Option<RecPosition> {
    match LastIndex(ps, algorithm)
    case None => None
    case Some(i) => Some(ps[i])
  }

  /** The observed position of a record: `(x, y, sqrt(x ** 2 + y ** 2))`. */
  function ObservedOf(sqrt: real -> real, p: RecPosition): Observed {
    Observe(sqrt, p.x, p.y)
  }

  /** A reconstructed position, when present, is not on the detector axis:
      the cascade divides by its radius. */
  predicate OffAxis(sqrt: real -> real, p: Option<RecPosition>) {
    p.Some? ==> ObservedOf(sqrt, p.value).r != 0.0
  }

  /** The S2 multipliers and corrected areas. */
  datatype S2Correction = S2Correction(
    xyTotal: real, xyTop: real, xyBottom: real,
    lifetime: real, ts: Option<real>,
    cs2: real, cs2Top: real, cs2Bottom: real)

  /** Inverse-map multipliers, lifetime multiplier and the top/bottom split by
      `area_fraction_top`. */
  function CorrectS2(area: real, fractionTop: real, mapTotal: real, mapTop: real, mapBottom: real,
                     life: LifetimeCorrection): (c: S2Correction)
    requires mapTotal != 0.0 && mapTop != 0.0 && mapBottom != 0.0
    ensures c.xyTotal * mapTotal == 1.0 && c.xyTop * mapTop == 1.0 && c.xyBottom * mapBottom == 1.0
    ensures c.lifetime == life.factor && c.ts == life.ts
    ensures c.cs2 * mapTotal == area * life.factor
    ensures c.cs2Top * mapTop == area * fractionTop * life.factor
    ensures c.cs2Bottom * mapBottom == area * (1.0 - fractionTop) * life.factor
    ensures mapTop == mapTotal && mapBottom == mapTotal ==> c.cs2Top + c.cs2Bottom == c.cs2
  {
    var cs2 := Scaled(area, life.factor, mapTotal);
    var cs2Top := Scaled(area * fractionTop, life.factor, mapTop);
    var cs2Bottom := Scaled(area * (1.0 - fractionTop), life.factor, mapBottom);
    ScaledSplit(area, fractionTop, life.factor, mapTotal);
    S2Correction(Inverse(mapTotal), Inverse(mapTop), Inverse(mapBottom), life.factor, life.ts,
                 cs2, cs2Top, cs2Bottom)
  }

  /** The multiplier that undoes a map value. */
  function Inverse(v: real): (r: real)
    requires v != 0.0
    ensures r * v == 1.0
  {
    1.0 / v
  }

  /** `a` times `f`, divided by the map value `v`. */
  function Scaled(a: real, f: real, v: real): (r: real)
    requires v != 0.0
    ensures r * v == a * f
  {
    InverseScales(a, f, v);
    a * (f * Inverse(v))
  }

  /** Under one map value the top and bottom parts add up to the total. */
  lemma ScaledSplit(area: real, fractionTop: real, f: real, v: real)
    requires v != 0.0
    ensures Scaled(area * fractionTop, f, v) + Scaled(area * (1.0 - fractionTop), f, v) == Scaled(area, f, v)
  {
    TopBottomSplit(area, fractionTop, f * Inverse(v));
  }

  /** Equal multiples of a non-zero factor have equal cofactors. */
  lemma Cancel(a: real, b: real, r: real)
    requires r != 0.0 && a * r == b * r
    ensures a == b
  {
    assert (a - b) * r == 0.0;
  }

  /** A value scaled by `f / v`, multiplied back by `v`. */
  lemma InverseScales(a: real, f: real, v: real)
    requires v != 0.0
    ensures (a * (f * (1.0 / v))) * v == a * f
  {
    assert a * (f * (1.0 / v)) == (a * f) * (1.0 / v);
    InverseUndoes(a * f, v);
  }

  /** Multiplying by `1 / v` and then by `v` gives back the value. */
  lemma InverseUndoes(a: real, v: real)
    requires v != 0.0
    ensures (a * (1.0 / v)) * v == a
  {
  }

  /** With equal multipliers the top and bottom parts add up to the total. */
  lemma TopBottomSplit(area: real, fractionTop: real, m: real)
    ensures area * fractionTop * m + area * (1.0 - fractionTop) * m == area * m
  {
  }

  /** The 2D field-distortion correction of the TPF position. */
  datatype Fdc2d = Fdc2d(rCorrection: real, zCorrection: real, r: real, x: real, y: real, z: real)

  /** Moved radially to radius `r`: same direction, and `r` is its radius
      when `o`'s radius is. */
  predicate RadiallyMoved(o: Observed, r: real, x: real, y: real) {
    && x * o.y == y * o.x
    && x * o.r == r * o.x
    && y * o.r == r * o.y
    && (OnCircle(o) ==> x * x + y * y == r * r)
  }

  predicate Fdc2dCoherent(f: Fdc2d, o: Observed, zObserved: real) {
    && f.r == o.r + f.rCorrection
    && f.z == zObserved + f.zCorrection
    && RadiallyMoved(o, f.r, f.x, f.y)
  }

  function ApplyFdc2d(o: Observed, zObserved: real, dr: real, dz: real): (f: Fdc2d)
    requires o.r != 0.0
    ensures f.rCorrection == dr && f.zCorrection == dz
    ensures Fdc2dCoherent(f, o, zObserved)
  {
    var s := ScaleTo(o, o.r + dr);
    Fdc2d(dr, dz, o.r + dr, s.x, s.y, zObserved + dz)
  }

  /** The 3D field-distortion correction of one algorithm's position. */
  datatype Fdc3d = Fdc3d(rCorrection: real, r: real, x: real, y: real, z: real, zCorrection: real)

  predicate Fdc3dCoherent(f: Fdc3d, o: Observed, zObserved: real) {
    && f.r == o.r + f.rCorrection
    && RadiallyMoved(o, f.r, f.x, f.y)
    && f.zCorrection == f.z - zObserved
    && (Abs(zObserved) <= Abs(f.rCorrection) ==> f.z == zObserved)
    && (Abs(zObserved) > Abs(f.rCorrection) ==>
          f.z <= 0.0 && f.z * f.z == zObserved * zObserved - f.rCorrection * f.rCorrection)
  }

  function ApplyFdc3d(sqrt: real -> real, o: Observed, zObserved: real, dr: real): (f: Fdc3d)
    requires IsSqrt(sqrt)
    requires o.r != 0.0
    ensures f.rCorrection == dr
    ensures Fdc3dCoherent(f, o, zObserved)
  {
    var s := ScaleTo(o, o.r + dr);
    var z := ZProjection(sqrt, zObserved, dr);
    Fdc3d(dr, o.r + dr, s.x, s.y, z, z - zObserved)
  }

  /** An S1 multiplier from a light-collection map and the corrected area. */
  datatype S1Correction = S1Correction(factor: real, cs1: real)

  function CorrectS1(area: real, mapValue: real): (c: S1Correction)
    requires mapValue != 0.0
    ensures c.factor * mapValue == 1.0
    ensures c.cs1 * mapValue == area
    ensures c.cs1 == area * c.factor
  {
    InverseUndoes(area, mapValue);
    S1Correction(1.0 / mapValue, area * (1.0 / mapValue))
  }

  /** Every field `extract_data` writes for an event with an interaction
      (`largest_other_s2` is not modelled). */
  datatype Corrected = Corrected(
    s2Area: real,
    tpf: Observed,
    nn: Observed,
    zObserved: real,
    s2: S2Correction,
    fdc2d: Fdc2d,
    fdc3dNn: Fdc3d,
    fdc3dTpf: Fdc3d,
    s1Tpf2d: S1Correction,   // s1_xyz_correction_tpf_fdc_2d, cs1_tpf_2dfdc
    s1Nn3d: S1Correction)    // s1_xyz_correction_nn_fdc_3d, cs1

  /** The relations between the fields of one result. */
  predicate Coherent(c: Corrected) {
    && Fdc2dCoherent(c.fdc2d, c.tpf, c.zObserved)
    && Fdc3dCoherent(c.fdc3dNn, c.nn, c.zObserved)
    && Fdc3dCoherent(c.fdc3dTpf, c.tpf, c.zObserved)
    && OnCircle(c.tpf)
    && OnCircle(c.nn)
  }

  /** Every value of a map file is non-zero: `1 / get_value(...)` is finite. */
  ghost predicate NonZeroFile(env: Env, f: string) {
    forall m, coords :: env.mapValue(f, m, coords) != 0.0
  }

  ghost predicate NonZeroSlot(env: Env, s: Slot) {
    s.loaded.Some? ==> NonZeroFile(env, s.loaded.value.file)
  }

  /** The maps whose values the cascade divides by have no zero. */
  ghost predicate DivisorsNonZero(env: Env, cs: Caches) {
    NonZeroSlot(env, cs.xy) && NonZeroSlot(env, cs.lceTpf2d) && NonZeroSlot(env, cs.lceNn3d)
  }

  ghost predicate ResolvedNonZero(env: Env, cfg: Config, run: int, c: Category) {
    match GetCorrection(cfg, CorrectionName(c), run)
    case Some(Text(f)) => NonZeroFile(env, f)
    case _ => true
  }

  /** The efficiency maps the registry resolves to for the run have no zero. */
  ghost predicate EfficiencyMapsNonZero(env: Env, cfg: Config, run: int) {
    && ResolvedNonZero(env, cfg, run, XyMap)
    && ResolvedNonZero(env, cfg, run, LceTpf2dMap)
    && ResolvedNonZero(env, cfg, run, LceNn3dMap)
  }

  /** The map in a slot, or the `AttributeError` of calling `get_value` on `None`. */
  function MapOf(cs: Caches, c: Category): (r: Result<InterpMap, Error>)
    ensures r.Success? <==> Get(cs, c).loaded.Some?
    ensures r.Success? ==> Get(cs, c).loaded == Some(r.value)
    ensures r.Failure? ==> r.error == MapNotLoaded(CorrectionName(c))
  {
    match Get(cs, c).loaded
    case Some(m) => Success(m)
    case None => Failure(MapNotLoaded(CorrectionName(c)))
  }

  /** The file of the map held in a slot (read only where the slot is loaded). */
  function FileOf(cs: Caches, c: Category): string {
    match Get(cs, c).loaded
    case Some(m) => m.file
    case None => ""
  }

  /** The S2 multipliers invert the xy map's total, `map_top` and `map_bottom`
      values at the observed TPF (x, y); each corrected area is the raw area
      (split by `area_fraction_top`) times the lifetime multiplier over the
      matching map value. */
  predicate S2ReadsMap(env: Env, file: string, tpf: Observed, s2: Peak, c: S2Correction) {
    var xy := [tpf.x, tpf.y];
    && c.xyTotal * env.mapValue(file, DefaultMap, xy) == 1.0
    && c.xyTop * env.mapValue(file, MapTop, xy) == 1.0
    && c.xyBottom * env.mapValue(file, MapBottom, xy) == 1.0
    && c.cs2 * env.mapValue(file, DefaultMap, xy) == s2.area * c.lifetime
    && c.cs2Top * env.mapValue(file, MapTop, xy) == s2.area * s2.areaFractionTop * c.lifetime
    && c.cs2Bottom * env.mapValue(file, MapBottom, xy) == s2.area * (1.0 - s2.areaFractionTop) * c.lifetime
  }

  /** The 2D deltas are the 2D map's `to_true_r` and `to_true_z` values at the
      TPF (r, z_observed); each 3D radial delta is the 3D map at that
      algorithm's own observed (x, y, z_observed). */
  predicate PositionsReadMaps(env: Env, fdc2dFile: string, fdc3dFile: string,
                              tpf: Observed, zObserved: real, p: Positions) {
    var rz := [tpf.r, zObserved];
    && p.fdc2d.rCorrection == env.mapValue(fdc2dFile, ToTrueR, rz)
    && p.fdc2d.zCorrection == env.mapValue(fdc2dFile, ToTrueZ, rz)
    && p.fdc3dNn.rCorrection == env.mapValue(fdc3dFile, DefaultMap, [p.nn.x, p.nn.y, zObserved])
    && p.fdc3dTpf.rCorrection == env.mapValue(fdc3dFile, DefaultMap, [tpf.x, tpf.y, zObserved])
  }

  /** The S1 multipliers invert the TPF light-collection map at the
      2D-corrected position and the neural-net one at the 3D-corrected
      neural-net position; each `cs1` is the S1 area times its multiplier. */
  predicate LightReadsMaps(env: Env, lceTpfFile: string, lceNnFile: string, s1: Peak, p: Positions,
                           light: (S1Correction, S1Correction)) {
    && light.0.factor * env.mapValue(lceTpfFile, DefaultMap, [p.fdc2d.x, p.fdc2d.y, p.fdc2d.z]) == 1.0
    && light.1.factor * env.mapValue(lceNnFile, DefaultMap, [p.fdc3dNn.x, p.fdc3dNn.y, p.fdc3dNn.z]) == 1.0
    && light.0.cs1 == s1.area * light.0.factor
    && light.1.cs1 == s1.area * light.1.factor
  }

  /** Every map-derived field of a result comes from the map in the right
      slot, read with the right sub-map at the right point. */
  predicate ReadsMaps(env: Env, cs: Caches, s1: Peak, s2: Peak, c: Corrected) {
    var p := Positions(c.nn, c.fdc2d, c.fdc3dNn, c.fdc3dTpf);
    && S2ReadsMap(env, FileOf(cs, XyMap), c.tpf, s2, c.s2)
    && PositionsReadMaps(env, FileOf(cs, Fdc2dMap), FileOf(cs, Fdc3dMap), c.tpf, c.zObserved, p)
    && LightReadsMaps(env, FileOf(cs, LceTpf2dMap), FileOf(cs, LceNn3dMap), s1, p, (c.s1Tpf2d, c.s1Nn3d))
  }

  /** The S2 step: the xy map, the lifetime, and the S2 multipliers. */
  function CorrectEnergy(env: Env, cfg: Config, s: Session, cs: Caches, it: Interaction,
                         s2: Peak, tpf: Observed): (r: Result<S2Correction, Error>)
    requires NonZeroSlot(env, cs.xy)
    ensures r.Success? <==>
              Get(cs, XyMap).loaded.Some? && LifetimeFactor(env.exp, cfg, s, it.driftTime).Success?
    ensures r.Success? ==> r.value.lifetime == LifetimeFactor(env.exp, cfg, s, it.driftTime).value.factor
    ensures r.Success? ==> r.value.ts == LifetimeFactor(env.exp, cfg, s, it.driftTime).value.ts
    ensures r.Success? ==> S2ReadsMap(env, FileOf(cs, XyMap), tpf, s2, r.value)
    ensures Get(cs, XyMap).loaded.None? ==> r == Failure(MapNotLoaded(CorrectionName(XyMap)))
    ensures Get(cs, XyMap).loaded.Some? && LifetimeFactor(env.exp, cfg, s, it.driftTime).Failure? ==>
              r == Failure(LifetimeFactor(env.exp, cfg, s, it.driftTime).error)
  {
    var xyMap :- MapOf(cs, XyMap);
    var life :- LifetimeFactor(env.exp, cfg, s, it.driftTime);
    Success(S2FromMapValues(env, xyMap.file, tpf, s2, life))
  }

  /** `CorrectS2` on the xy map's three values at the TPF (x, y). */
  function S2FromMapValues(env: Env, file: string, tpf: Observed, s2: Peak, life: LifetimeCorrection)
    : (c: S2Correction)
    requires NonZeroFile(env, file)
    ensures c.lifetime == life.factor && c.ts == life.ts
    ensures S2ReadsMap(env, file, tpf, s2, c)
  {
    var xy := [tpf.x, tpf.y];
    var total, top, bottom := env.mapValue(file, DefaultMap, xy), env.mapValue(file, MapTop, xy),
                              env.mapValue(file, MapBottom, xy);
    CorrectS2(s2.area, s2.areaFractionTop, total, top, bottom, life)
  }

  /** The field-distortion results and the neural-net position they use. */
  datatype Positions = Positions(nn: Observed, fdc2d: Fdc2d, fdc3dNn: Fdc3d, fdc3dTpf: Fdc3d)

  /** The position step: 2D FDC on the TPF position, then 3D FDC on the
      neural-net and the TPF positions. */
  function CorrectPositions(env: Env, cs: Caches, s2: Peak, tpf: Observed, zObserved: real)
    : (r: Result<Positions, Error>)
    requires IsSqrt(env.sqrt)
    requires tpf.r != 0.0 && OnCircle(tpf)
    requires OffAxis(env.sqrt, LastPosition(s2.positions, NeuralNet))
    ensures r.Success? <==>
              && Get(cs, Fdc2dMap).loaded.Some?
              && Get(cs, Fdc3dMap).loaded.Some?
              && LastPosition(s2.positions, NeuralNet).Some?
    ensures r.Success? ==>
              && r.value.nn == ObservedOf(env.sqrt, LastPosition(s2.positions, NeuralNet).value)
              && OnCircle(r.value.nn)
              && Fdc2dCoherent(r.value.fdc2d, tpf, zObserved)
              && Fdc3dCoherent(r.value.fdc3dNn, r.value.nn, zObserved)
              && Fdc3dCoherent(r.value.fdc3dTpf, tpf, zObserved)
    ensures r.Success? ==>
              PositionsReadMaps(env, FileOf(cs, Fdc2dMap), FileOf(cs, Fdc3dMap), tpf, zObserved, r.value)
    ensures Get(cs, Fdc2dMap).loaded.None? ==> r == Failure(MapNotLoaded(CorrectionName(Fdc2dMap)))
    ensures Get(cs, Fdc2dMap).loaded.Some? && Get(cs, Fdc3dMap).loaded.None? ==>
              r == Failure(MapNotLoaded(CorrectionName(Fdc3dMap)))
    ensures Get(cs, Fdc2dMap).loaded.Some? && Get(cs, Fdc3dMap).loaded.Some?
            && LastPosition(s2.positions, NeuralNet).None? ==>
              r == Failure(NeuralNetPositionMissing)
  {
    var fdc2dMap :- MapOf(cs, Fdc2dMap);
    var rz := [tpf.r, zObserved];
    var fdc2d := ApplyFdc2d(tpf, zObserved,
                            env.mapValue(fdc2dMap.file, ToTrueR, rz),
                            env.mapValue(fdc2dMap.file, ToTrueZ, rz));
    var fdc3dMap :- MapOf(cs, Fdc3dMap);
    var nnPosition :- LastPosition(s2.positions, NeuralNet).ToResult(NeuralNetPositionMissing);
    var nn := ObservedOf(env.sqrt, nnPosition);
    RadiusOfObserved(env.sqrt, nn.x, nn.y);
    var fdc3dNn := ApplyFdc3d(env.sqrt, nn, zObserved, env.mapValue(fdc3dMap.file, DefaultMap, [nn.x, nn.y, zObserved]));
    var fdc3dTpf := ApplyFdc3d(env.sqrt, tpf, zObserved, env.mapValue(fdc3dMap.file, DefaultMap, [tpf.x, tpf.y, zObserved]));
    Success(Positions(nn, fdc2d, fdc3dNn, fdc3dTpf))
  }

  /** The S1 step: light-collection corrections at the 2D-corrected TPF
      position and at the 3D-corrected neural-net position. */
  function CorrectLight(env: Env, cs: Caches, s1: Peak, p: Positions)
    : (r: Result<(S1Correction, S1Correction), Error>)
    requires NonZeroSlot(env, cs.lceTpf2d) && NonZeroSlot(env, cs.lceNn3d)
    ensures r.Success? <==> Get(cs, LceTpf2dMap).loaded.Some? && Get(cs, LceNn3dMap).loaded.Some?
    ensures r.Success? ==> LightReadsMaps(env, FileOf(cs, LceTpf2dMap), FileOf(cs, LceNn3dMap), s1, p, r.value)
    ensures Get(cs, LceTpf2dMap).loaded.None? ==> r == Failure(MapNotLoaded(CorrectionName(LceTpf2dMap)))
    ensures Get(cs, LceTpf2dMap).loaded.Some? && Get(cs, LceNn3dMap).loaded.None? ==>
              r == Failure(MapNotLoaded(CorrectionName(LceNn3dMap)))
  {
    var lceTpfMap :- MapOf(cs, LceTpf2dMap);
    var s1Tpf2d := CorrectS1(s1.area, env.mapValue(lceTpfMap.file, DefaultMap, [p.fdc2d.x, p.fdc2d.y, p.fdc2d.z]));
    var lceNnMap :- MapOf(cs, LceNn3dMap);
    var s1Nn3d := CorrectS1(s1.area, env.mapValue(lceNnMap.file, DefaultMap, [p.fdc3dNn.x, p.fdc3dNn.y, p.fdc3dNn.z]));
    Success((s1Tpf2d, s1Nn3d))
  }

  /** A slot per category: all five loaded is every category loaded. */
  lemma EveryCategoryLoaded(cs: Caches)
    ensures (forall c :: Get(cs, c).loaded.Some?)
        <==> (&& Get(cs, XyMap).loaded.Some? && Get(cs, Fdc2dMap).loaded.Some?
              && Get(cs, Fdc3dMap).loaded.Some? && Get(cs, LceTpf2dMap).loaded.Some?
              && Get(cs, LceNn3dMap).loaded.Some?)
  {
    if && Get(cs, XyMap).loaded.Some? && Get(cs, Fdc2dMap).loaded.Some?
       && Get(cs, Fdc3dMap).loaded.Some? && Get(cs, LceTpf2dMap).loaded.Some?
       && Get(cs, LceNn3dMap).loaded.Some? {
      forall c ensures Get(cs, c).loaded.Some? {
        match c
        case XyMap =>
        case Fdc2dMap =>
        case Fdc3dMap =>
        case LceTpf2dMap =>
        case LceNn3dMap =>
      }
    }
  }

  /** The exception the cascade raises on slots `cs`, if any: the first
      failing step in the order `extract_data` runs them (the xy map, the
      lifetime, the 2D and 3D distortion maps, the neural-net position, then
      the two light-collection maps). */
  function CascadeError(exp: real -> real, cfg: Config, s: Session, cs: Caches, it: Interaction, s2: Peak)
    : (e: Option<Error>)
    ensures e.None? <==>
              && (forall c :: Get(cs, c).loaded.Some?)
              && LifetimeFactor(exp, cfg, s, it.driftTime).Success?
              && LastPosition(s2.positions, NeuralNet).Some?
  {
    EveryCategoryLoaded(cs);
    if Get(cs, XyMap).loaded.None? then Some(MapNotLoaded(CorrectionName(XyMap)))
    else if LifetimeFactor(exp, cfg, s, it.driftTime).Failure? then
      Some(LifetimeFactor(exp, cfg, s, it.driftTime).error)
    else if Get(cs, Fdc2dMap).loaded.None? then Some(MapNotLoaded(CorrectionName(Fdc2dMap)))
    else if Get(cs, Fdc3dMap).loaded.None? then Some(MapNotLoaded(CorrectionName(Fdc3dMap)))
    else if LastPosition(s2.positions, NeuralNet).None? then Some(NeuralNetPositionMissing)
    else if Get(cs, LceTpf2dMap).loaded.None? then Some(MapNotLoaded(CorrectionName(LceTpf2dMap)))
    else if Get(cs, LceNn3dMap).loaded.None? then Some(MapNotLoaded(CorrectionName(LceNn3dMap)))
    else None
  }

  /** Everything `extract_data` computes after the maps are refreshed, for the
      first interaction and its S1 and S2 peaks: the S2, position and S1
      steps in the order the source runs them. */
  function Correct(env: Env, cfg: Config, s: Session, cs: Caches, it: Interaction, s1: Peak, s2: Peak): (r: Result<Corrected, Error>)
    requires IsSqrt(env.sqrt)
    requires DivisorsNonZero(env, cs)
    requires LastPosition(s2.positions, TopPatternFit).Some?
    requires OffAxis(env.sqrt, LastPosition(s2.positions, TopPatternFit))
    requires OffAxis(env.sqrt, LastPosition(s2.positions, NeuralNet))
    ensures r.Success? <==>
              && (forall c :: Get(cs, c).loaded.Some?)
              && LifetimeFactor(env.exp, cfg, s, it.driftTime).Success?
              && LastPosition(s2.positions, NeuralNet).Some?
    ensures r.Success? ==> Coherent(r.value)
    ensures r.Success? ==>
              && r.value.s2Area == s2.area
              && r.value.zObserved == it.z - it.zCorrection
              && r.value.tpf == ObservedOf(env.sqrt, LastPosition(s2.positions, TopPatternFit).value)
              && r.value.nn == ObservedOf(env.sqrt, LastPosition(s2.positions, NeuralNet).value)
              && r.value.s2.lifetime == LifetimeFactor(env.exp, cfg, s, it.driftTime).value.factor
              && r.value.s2.ts == LifetimeFactor(env.exp, cfg, s, it.driftTime).value.ts
    ensures r.Success? ==> ReadsMaps(env, cs, s1, s2, r.value)
    ensures r.Failure? ==> CascadeError(env.exp, cfg, s, cs, it, s2) == Some(r.error)
  {
    var tpf := ObservedOf(env.sqrt, LastPosition(s2.positions, TopPatternFit).value);
    RadiusOfObserved(env.sqrt, tpf.x, tpf.y);
    var zObserved := it.z - it.zCorrection;
    EveryCategoryLoaded(cs);
    var s2c :- CorrectEnergy(env, cfg, s, cs, it, s2, tpf);
    var p :- CorrectPositions(env, cs, s2, tpf, zObserved);
    var light :- CorrectLight(env, cs, s1, p);
    Success(Corrected(s2.area, tpf, p.nn, zObserved, s2c, p.fdc2d, p.fdc3dNn, p.fdc3dTpf, light.0, light.1))
  }

  /** The TPF position exists and, like the neural-net one, lies off the axis
      (without a TPF record the source fails on an unbound `x_observed`). */
  predicate PositionsUsable(sqrt: real -> real, ev: Event) {
    |ev.interactions| > 0 && ev.interactions[0].s2 < |ev.peaks| ==>
      var ps := ev.peaks[ev.interactions[0].s2].positions;
      && LastPosition(ps, TopPatternFit).Some?
      && OffAxis(sqrt, LastPosition(ps, TopPatternFit))
      && OffAxis(sqrt, LastPosition(ps, NeuralNet))
  }

  datatype Outcome = NoInteraction | Fields(fields: Corrected)

  /** The caches after the event (kept even when a later step fails), the
      number of map loads, and the result or the error raised. */
  datatype Extraction = Extraction(caches: Caches, loads: nat, outcome: Result<Outcome, Error>)

  predicate AllCurrent(cfg: Config, run: int, cs: Caches) {
    forall c :: Current(cfg, run, cs, c)
  }

  /** The part of `extract_data` after the peak lookups: the five
      `load_map` statements, then the cascade on the refreshed slots. The
      slots refreshed before a failing load are kept. */
  function RefreshAndCorrect(env: Env, cfg: Config, s: Session, cs: Caches, it: Interaction, s1: Peak, s2: Peak)
    : (r: Extraction)
    requires IsSqrt(env.sqrt)
    requires AllConsistent(cs)
    requires EfficiencyMapsNonZero(env, cfg, s.runNumber)
    requires LastPosition(s2.positions, TopPatternFit).Some?
    requires OffAxis(env.sqrt, LastPosition(s2.positions, TopPatternFit))
    requires OffAxis(env.sqrt, LastPosition(s2.positions, NeuralNet))
    ensures Distinct(RefreshOrder)
    ensures var rf := RefreshAll(env.available, cfg, s.runNumber, cs, RefreshOrder);
            && r.caches == rf.caches && r.loads == rf.loads
            && (rf.error.Some? ==> r.outcome == Failure(rf.error.value))
            && (rf.error.None? && r.outcome.Failure? ==>
                  CascadeError(env.exp, cfg, s, r.caches, it, s2) == Some(r.outcome.error))
    ensures AllConsistent(r.caches)
    ensures AllCurrent(cfg, s.runNumber, cs) ==> r.caches == cs && r.loads == 0
    ensures r.outcome.Success? ==>
              && r.outcome.value.Fields?
              && AllCurrent(cfg, s.runNumber, r.caches)
              && r.loads == StaleCount(cfg, s.runNumber, cs, RefreshOrder)
              && DivisorsNonZero(env, r.caches)
              && Correct(env, cfg, s, r.caches, it, s1, s2) == Success(r.outcome.value.fields)
  {
    RefreshOfCurrentIsNoOpAll(env.available, cfg, s.runNumber, cs);
    var rf := RefreshAll(env.available, cfg, s.runNumber, cs, RefreshOrder);
    if rf.error.Some? then Extraction(rf.caches, rf.loads, Failure(rf.error.value))
    else
      RefreshedDivisorsNonZero(env, cfg, s.runNumber, rf.caches);
      match Correct(env, cfg, s, rf.caches, it, s1, s2)
      case Success(c) => Extraction(rf.caches, rf.loads, Success(Fields(c)))
      case Failure(e) => Extraction(rf.caches, rf.loads, Failure(e))
  }

  /** `extract_data(event)` on an instance whose map slots are `cs`. The S2
      peak is looked up before the S1 peak, and both before any map is loaded. */
  function ExtractData(env: Env, cfg: Config, s: Session, cs: Caches, ev: Event): (r: Extraction)
    requires IsSqrt(env.sqrt)
    requires AllConsistent(cs)
    requires EfficiencyMapsNonZero(env, cfg, s.runNumber)
    requires PositionsUsable(env.sqrt, ev)
    ensures |ev.interactions| == 0 ==> r == Extraction(cs, 0, Success(NoInteraction))
    ensures |ev.interactions| > 0 && ev.interactions[0].s2 >= |ev.peaks| ==>
              r == Extraction(cs, 0, Failure(PeakMissing(ev.interactions[0].s2)))
    ensures |ev.interactions| > 0 && ev.interactions[0].s2 < |ev.peaks| <= ev.interactions[0].s1 ==>
              r == Extraction(cs, 0, Failure(PeakMissing(ev.interactions[0].s1)))
    ensures |ev.interactions| > 0 && ev.interactions[0].s2 < |ev.peaks| && ev.interactions[0].s1 < |ev.peaks| ==>
              && Distinct(RefreshOrder)
              && var rf := RefreshAll(env.available, cfg, s.runNumber, cs, RefreshOrder);
                 && r.caches == rf.caches && r.loads == rf.loads
                 && (rf.error.Some? ==> r.outcome == Failure(rf.error.value))
                 && (rf.error.None? && r.outcome.Failure? ==>
                       CascadeError(env.exp, cfg, s, r.caches, ev.interactions[0], ev.peaks[ev.interactions[0].s2])
                       == Some(r.outcome.error))
    ensures AllConsistent(r.caches)
    ensures r.loads <= |RefreshOrder|
    ensures AllCurrent(cfg, s.runNumber, cs) ==> r.caches == cs && r.loads == 0
    ensures r.outcome.Success? && |ev.interactions| > 0 ==>
              && r.outcome.value.Fields?
              && Coherent(r.outcome.value.fields)
              && AllCurrent(cfg, s.runNumber, r.caches)
              && r.loads == StaleCount(cfg, s.runNumber, cs, RefreshOrder)
    ensures r.outcome.Success? && |ev.interactions| > 0 ==>
              && ev.interactions[0].s1 < |ev.peaks|
              && ev.interactions[0].s2 < |ev.peaks|
              && AllConsistent(r.caches)
              && DivisorsNonZero(env, r.caches)
              && Correct(env, cfg, s, r.caches, ev.interactions[0],
                         ev.peaks[ev.interactions[0].s1], ev.peaks[ev.interactions[0].s2])
                 == Success(r.outcome.value.fields)
              && ReadsMaps(env, r.caches, ev.peaks[ev.interactions[0].s1], ev.peaks[ev.interactions[0].s2],
                           r.outcome.value.fields)
  {
    if |ev.interactions| == 0 then Extraction(cs, 0, Success(NoInteraction))
    else
      var it := ev.interactions[0];
      if it.s2 >= |ev.peaks| then Extraction(cs, 0, Failure(PeakMissing(it.s2)))
      else if it.s1 >= |ev.peaks| then Extraction(cs, 0, Failure(PeakMissing(it.s1)))
      else RefreshAndCorrect(env, cfg, s, cs, it, ev.peaks[it.s1], ev.peaks[it.s2])
  }

  /** Every category is refreshed. */
  lemma RefreshOrderCoversAll(c: Category)
    ensures c in RefreshOrder
  {
    match c
    case XyMap => assert RefreshOrder[0] == c;
    case Fdc2dMap => assert RefreshOrder[1] == c;
    case Fdc3dMap => assert RefreshOrder[2] == c;
    case LceTpf2dMap => assert RefreshOrder[3] == c;
    case LceNn3dMap => assert RefreshOrder[4] == c;
  }

  lemma RefreshOfCurrentIsNoOpAll(available: string -> bool, cfg: Config, run: int, cs: Caches)
    ensures Distinct(RefreshOrder)
    ensures var rf := RefreshAll(available, cfg, run, cs, RefreshOrder);
            && (rf.error.None? ==> AllCurrent(cfg, run, rf.caches))
            && (AllCurrent(cfg, run, cs) ==> rf == Refresh(cs, 0, None))
  {
    var rf := RefreshAll(available, cfg, run, cs, RefreshOrder);
    if rf.error.None? {
      forall c ensures Current(cfg, run, rf.caches, c) {
        RefreshOrderCoversAll(c);
      }
    }
    if AllCurrent(cfg, run, cs) {
      RefreshOfCurrentIsNoOp(available, cfg, run, cs, RefreshOrder);
    }
  }

  /** Consistent, current slots hold exactly the resolved maps, so the
      non-zero requirement on the resolved files carries over. */
  lemma RefreshedDivisorsNonZero(env: Env, cfg: Config, run: int, cs: Caches)
    requires AllConsistent(cs) && AllCurrent(cfg, run, cs)
    requires EfficiencyMapsNonZero(env, cfg, run)
    ensures DivisorsNonZero(env, cs)
  {
    assert Consistent(Get(cs, XyMap)) && Current(cfg, run, cs, XyMap);
    assert Consistent(Get(cs, LceTpf2dMap)) && Current(cfg, run, cs, LceTpf2dMap);
    assert Consistent(Get(cs, LceNn3dMap)) && Current(cfg, run, cs, LceNn3dMap);
  }

  /** Every value of the map the registry resolves `c` to equals `v`. */
  ghost predicate ResolvedConstant(env: Env, cfg: Config, run: int, c: Category, v: real) {
    match GetCorrection(cfg, CorrectionName(c), run)
    case Some(Text(f)) => forall m, coords :: env.mapValue(f, m, coords) == v
    case _ => true
  }

  /** Efficiency maps that are 1 everywhere and a 2D distortion map that
      shifts nothing. */
  ghost predicate NeutralMaps(env: Env, cfg: Config, run: int) {
    && ResolvedConstant(env, cfg, run, XyMap, 1.0)
    && ResolvedConstant(env, cfg, run, Fdc2dMap, 0.0)
    && ResolvedConstant(env, cfg, run, LceTpf2dMap, 1.0)
    && ResolvedConstant(env, cfg, run, LceNn3dMap, 1.0)
  }

  /** A slot that is consistent and current holds the resolved map. */
  lemma CurrentSlotHoldsResolved(cfg: Config, run: int, cs: Caches, c: Category)
    requires Consistent(Get(cs, c)) && Current(cfg, run, cs, c)
    requires Get(cs, c).loaded.Some?
    ensures GetCorrection(cfg, CorrectionName(c), run) == Some(Text(Get(cs, c).loaded.value.file))
  {
  }

  /** Every value of the map in a slot equals `v`. */
  ghost predicate SlotConstant(env: Env, s: Slot, v: real) {
    s.loaded.Some? ==> FileConstant(env, s.loaded.value.file, v)
  }

  ghost predicate NeutralSlots(env: Env, cs: Caches) {
    && SlotConstant(env, cs.xy, 1.0)
    && SlotConstant(env, cs.fdc2d, 0.0)
    && SlotConstant(env, cs.lceTpf2d, 1.0)
    && SlotConstant(env, cs.lceNn3d, 1.0)
  }

  /** The identity statement for one result. */
  predicate Unchanged(f: Corrected, s1: Peak, s2: Peak) {
    && f.s2.lifetime == 1.0
    && f.s2.cs2 == s2.area
    && f.s2.cs2Top == s2.area * s2.areaFractionTop
    && f.s2.cs2Bottom == s2.area * (1.0 - s2.areaFractionTop)
    && f.s1Tpf2d.cs1 == s1.area
    && f.s1Nn3d.cs1 == s1.area
    && f.fdc2d.r == f.tpf.r
    && f.fdc2d.x == f.tpf.x
    && f.fdc2d.y == f.tpf.y
    && f.fdc2d.z == f.zObserved
  }

  /** A map file whose every value is `v`. */
  ghost predicate FileConstant(env: Env, file: string, v: real) {
    forall m, coords :: env.mapValue(file, m, coords) == v
  }

  /** S2 multipliers read from an all-ones xy map and a lifetime multiplier of
      one leave the areas as they were. */
  lemma NeutralS2Fields(env: Env, file: string, tpf: Observed, s2: Peak, c: S2Correction)
    requires FileConstant(env, file, 1.0)
    requires S2ReadsMap(env, file, tpf, s2, c) && c.lifetime == 1.0
    ensures c.cs2 == s2.area
    ensures c.cs2Top == s2.area * s2.areaFractionTop
    ensures c.cs2Bottom == s2.area * (1.0 - s2.areaFractionTop)
  {
    var xy := [tpf.x, tpf.y];
    assert env.mapValue(file, DefaultMap, xy) == 1.0;
    assert env.mapValue(file, MapTop, xy) == 1.0;
    assert env.mapValue(file, MapBottom, xy) == 1.0;
  }

  /** Zero 2D deltas leave the TPF position where it was observed. */
  lemma NeutralFdc2dFields(env: Env, file: string, tpf: Observed, zObserved: real, f: Fdc2d)
    requires FileConstant(env, file, 0.0)
    requires f.rCorrection == env.mapValue(file, ToTrueR, [tpf.r, zObserved])
    requires f.zCorrection == env.mapValue(file, ToTrueZ, [tpf.r, zObserved])
    requires Fdc2dCoherent(f, tpf, zObserved) && tpf.r != 0.0
    ensures f.r == tpf.r && f.x == tpf.x && f.y == tpf.y && f.z == zObserved
  {
    assert f.rCorrection == 0.0 && f.zCorrection == 0.0;
    assert f.r == tpf.r;
    assert RadiallyMoved(tpf, f.r, f.x, f.y);
    assert f.x * tpf.r == f.r * tpf.x && f.y * tpf.r == f.r * tpf.y;
    assert f.r * tpf.x == tpf.x * tpf.r && f.r * tpf.y == tpf.y * tpf.r;
    Cancel(f.x, tpf.x, tpf.r);
    Cancel(f.y, tpf.y, tpf.r);
  }

  /** An S1 multiplier read from an all-ones map leaves the area as it was. */
  lemma NeutralS1Field(env: Env, file: string, coords: seq<real>, area: real, c: S1Correction)
    requires FileConstant(env, file, 1.0)
    requires c.factor * env.mapValue(file, DefaultMap, coords) == 1.0
    requires c.cs1 == area * c.factor
    ensures c.cs1 == area
  {
    assert env.mapValue(file, DefaultMap, coords) == 1.0;
  }

  /** A result read from neutral maps equals the raw values. */
  lemma NeutralFields(env: Env, cs: Caches, s1: Peak, s2: Peak, c: Corrected)
    requires NeutralSlots(env, cs)
    requires forall cat :: Get(cs, cat).loaded.Some?
    requires ReadsMaps(env, cs, s1, s2, c)
    requires Fdc2dCoherent(c.fdc2d, c.tpf, c.zObserved) && c.tpf.r != 0.0
    requires c.s2.lifetime == 1.0
    ensures Unchanged(c, s1, s2)
  {
    assert Get(cs, XyMap).loaded.Some? && Get(cs, Fdc2dMap).loaded.Some?;
    assert Get(cs, LceTpf2dMap).loaded.Some? && Get(cs, LceNn3dMap).loaded.Some?;
    NeutralS2Fields(env, FileOf(cs, XyMap), c.tpf, s2, c.s2);
    NeutralFdc2dFields(env, FileOf(cs, Fdc2dMap), c.tpf, c.zObserved, c.fdc2d);
    NeutralS1Field(env, FileOf(cs, LceTpf2dMap), [c.fdc2d.x, c.fdc2d.y, c.fdc2d.z], s1.area, c.s1Tpf2d);
    NeutralS1Field(env, FileOf(cs, LceNn3dMap), [c.fdc3dNn.x, c.fdc3dNn.y, c.fdc3dNn.z], s1.area, c.s1Nn3d);
  }

  /** `Correct` with neutral maps in the slots and no lifetime source. */
  lemma NeutralCorrect(env: Env, cfg: Config, s: Session, cs: Caches, it: Interaction, s1: Peak, s2: Peak)
    requires IsSqrt(env.sqrt)
    requires DivisorsNonZero(env, cs)
    requires LastPosition(s2.positions, TopPatternFit).Some?
    requires OffAxis(env.sqrt, LastPosition(s2.positions, TopPatternFit))
    requires OffAxis(env.sqrt, LastPosition(s2.positions, NeuralNet))
    requires NeutralSlots(env, cs)
    requires !s.mcData && s.elifeInterpolation.None?
    ensures Correct(env, cfg, s, cs, it, s1, s2).Success? ==>
              Unchanged(Correct(env, cfg, s, cs, it, s1, s2).value, s1, s2)
  {
    var r := Correct(env, cfg, s, cs, it, s1, s2);
    if r.Success? {
      NeutralFields(env, cs, s1, s2, r.value);
    }
  }

  /** Neutral resolved maps make neutral slots once the slots are current. */
  lemma NeutralMapsInSlots(env: Env, cfg: Config, run: int, cs: Caches)
    requires AllConsistent(cs) && AllCurrent(cfg, run, cs)
    requires NeutralMaps(env, cfg, run)
    ensures NeutralSlots(env, cs)
  {
    forall c | Get(cs, c).loaded.Some?
      ensures GetCorrection(cfg, CorrectionName(c), run) == Some(Text(Get(cs, c).loaded.value.file))
    {
      CurrentSlotHoldsResolved(cfg, run, cs, c);
    }
    assert ResolvedConstant(env, cfg, run, XyMap, 1.0);
  }

  /** With neutral maps and no lifetime source the corrections change
      nothing: the corrected areas equal the raw ones and the 2D-corrected
      position equals the observed one. */
  lemma NeutralCorrectionsAreIdentity(env: Env, cfg: Config, s: Session, cs: Caches, ev: Event)
    requires IsSqrt(env.sqrt)
    requires AllConsistent(cs)
    requires EfficiencyMapsNonZero(env, cfg, s.runNumber)
    requires PositionsUsable(env.sqrt, ev)
    requires NeutralMaps(env, cfg, s.runNumber)
    requires !s.mcData && s.elifeInterpolation.None?
    requires |ev.interactions| > 0
    ensures var out := ExtractData(env, cfg, s, cs, ev).outcome;
            out.Success? ==>
              && ev.interactions[0].s1 < |ev.peaks| && ev.interactions[0].s2 < |ev.peaks|
              && Unchanged(out.value.fields, ev.peaks[ev.interactions[0].s1], ev.peaks[ev.interactions[0].s2])
  {
    if ExtractData(env, cfg, s, cs, ev).outcome.Success? {
      var it := ev.interactions[0];
      var cs1 := ExtractData(env, cfg, s, cs, ev).caches;
      NeutralMapsInSlots(env, cfg, s.runNumber, cs1);
      NeutralCorrect(env, cfg, s, cs1, it, ev.peaks[it.s1], ev.peaks[it.s2]);
    }
  }
}

=== FILE: cuts.dfy ===
/** The cut bookkeeping of the selection helpers: selecting rows of a frame by a
    boolean mask while recording, per resulting frame, the list of cuts that
    produced it, and skipping a named cut already present in that list.

    The module-level history dictionary keyed by `id(d)` becomes an explicit
    `CutState` threaded through every call, and object identity becomes a
    `Handle` drawn from a counter, so a handle is never reused. */
module Cuts {
  import opened Wrappers
  import opened Errors
  import opened Masks

  /** The description a selection gets when the caller names none. */
  const Unnamed: string := "Unnamed"

  /** One entry of a frame's cut history. */
  datatype CutRecord = CutRecord(desc: string, nBefore: nat, nAfter: nat)

  type Handle = nat

  /** A frame: its identity and its rows. */
  datatype Dataset<T> = Dataset(handle: Handle, rows: seq<T>)

  /** The history of every frame a cut produced, and the next unused handle. */
  datatype CutState = CutState(history: map<Handle, seq<CutRecord>>, next: Handle)

  const Start := CutState(map[], 0)

  /** A frame created outside the helpers: a fresh identity and no history. */
  function Allocate<T>(st: CutState, rows: seq<T>): (r: (CutState, Dataset<T>))
    ensures r.1.rows == rows && r.1.handle == st.next
    ensures r.0.history == st.history && r.0.next == st.next + 1
  {
    (CutState(st.history, st.next + 1), Dataset(st.next, rows))
  }

  function Last(h: seq<CutRecord>): CutRecord
    requires |h| > 0
  {
    h[|h| - 1]
  }

  /** Every handle with a history was handed out: identities are never reused. */
  predicate Issued(st: CutState) {
    forall h :: h in st.history ==> h < st.next
  }

  /** A history as the helpers build it: non-empty, each cut removes rows and
      never adds any, and each cut starts from the rows the previous one left. */
  predicate Chained(h: seq<CutRecord>) {
    && |h| > 0
    && (forall k :: 0 <= k < |h| ==> h[k].nAfter <= h[k].nBefore)
    && (forall k :: 0 <= k < |h| - 1 ==> h[k].nAfter == h[k + 1].nBefore)
  }

  /** Every recorded handle was handed out and every history is chained. */
  predicate Valid(st: CutState) {
    forall h :: h in st.history ==> h < st.next && Chained(st.history[h])
  }

  /** A frame whose handle was handed out and whose last recorded cut, if any,
      left exactly its rows. */
  predicate Tracked<T>(st: CutState, d: Dataset<T>) {
    && d.handle < st.next
    && (d.handle in st.history && |st.history[d.handle]| > 0 ==>
          Last(st.history[d.handle]).nAfter == |d.rows|)
  }

  /** The cuts already applied to `d` (`CUT_HISTORY.get(id(d), [])`). */
  function Previous<T>(st: CutState, d: Dataset<T>): seq<CutRecord> {
    if d.handle in st.history then st.history[d.handle] else []
  }

  predicate Performed(prev: seq<CutRecord>, desc: string) {
    exists c :: c in prev && c.desc == desc
  }

  /** When a selection returns its input untouched instead of cutting. */
  predicate Skips(prev: seq<CutRecord>, desc: string, forceRepeat: bool) {
    desc != Unnamed && !forceRepeat && Performed(prev, desc)
  }

  /** What `selection(..., return_passthrough_info=True)` returns, with the
      updated history alongside. */
  datatype Selected<T> = Selected(state: CutState, data: Dataset<T>, nBefore: nat, nAfter: nat)

  /** `selection(d, bools, desc, _invert=invert, force_repeat=forceRepeat)`.
      `invert` is accepted and ignored, as it is by the helper. */
  function Selection<T>(st: CutState, d: Dataset<T>, mask: seq<bool>, desc: string,
                        forceRepeat: bool, invert: bool): (r: Selected<T>)
    requires |mask| == |d.rows|
    requires Issued(st) && d.handle < st.next
    ensures r.nBefore == |d.rows| && r.nAfter == |r.data.rows| <= r.nBefore
    ensures Skips(Previous(st, d), desc, forceRepeat) ==> r == Selected(st, d, |d.rows|, |d.rows|)
    ensures !Skips(Previous(st, d), desc, forceRepeat) ==>
      && r.data == Dataset(st.next, Pick(d.rows, TrueIndices(mask)))
      && r.nAfter == CountTrue(mask)
      && r.state.next == st.next + 1
      && Previous(r.state, r.data) == Previous(st, d) + [CutRecord(desc, r.nBefore, r.nAfter)]
    ensures forall h :: h in st.history ==> h in r.state.history && r.state.history[h] == st.history[h]
    ensures forall h :: h in r.state.history ==> h in st.history || h == r.data.handle
    ensures Issued(r.state) && r.data.handle < r.state.next
  {
    var prev := Previous(st, d);
    if desc != Unnamed && !forceRepeat && Performed(prev, desc) then
      Selected(st, d, |d.rows|, |d.rows|)
    else
      KeepIsPickOfTrueIndices(d.rows, mask);
      var kept := Keep(d.rows, mask);
      var h := prev + [CutRecord(desc, |d.rows|, |kept|)];
      Selected(CutState(st.history[st.next := h], st.next + 1),
               Dataset(st.next, kept), |d.rows|, |kept|)
  }

  /** A selection keeps every history chained, and its result is tracked:
      the record it appends starts from the rows the input's last record left. */
  lemma SelectionKeepsHistoriesChained<T>(st: CutState, d: Dataset<T>, mask: seq<bool>, desc: string,
                                          forceRepeat: bool, invert: bool)
    requires |mask| == |d.rows|
    requires Valid(st) && Tracked(st, d)
    ensures var r := Selection(st, d, mask, desc, forceRepeat, invert);
            Valid(r.state) && Tracked(r.state, r.data)
  {
    var r := Selection(st, d, mask, desc, forceRepeat, invert);
    if !Skips(Previous(st, d), desc, forceRepeat) {
      var prev := Previous(st, d);
      var h := Previous(r.state, r.data);
      if |prev| > 0 {
        assert Chained(prev);
      }
      assert Chained(h);
    }
  }

  /** Repeating a named cut on its own result, without `force_repeat`, hands
      back that result and leaves the history alone. */
  lemma NamedCutIsNotRepeated<T>(st: CutState, d: Dataset<T>, mask: seq<bool>, again: seq<bool>,
                                 desc: string, invert: bool)
    requires |mask| == |d.rows| && Issued(st) && d.handle < st.next
    requires desc != Unnamed
    requires !Skips(Previous(st, d), desc, false)
    requires |again| == CountTrue(mask)
    ensures var first := Selection(st, d, mask, desc, false, invert);
            Selection(first.state, first.data, again, desc, false, invert)
              == Selected(first.state, first.data, first.nAfter, first.nAfter)
  {
    var first := Selection(st, d, mask, desc, false, invert);
    var h := Previous(first.state, first.data);
    assert h[|h| - 1].desc == desc;
    assert Performed(h, desc);
  }

  /** An unnamed selection is always carried out, even when repeated. */
  lemma UnnamedIsAlwaysPerformed<T>(st: CutState, d: Dataset<T>, mask: seq<bool>, again: seq<bool>)
    requires |mask| == |d.rows| && Issued(st) && d.handle < st.next
    requires |again| == CountTrue(mask)
    ensures var first := Selection(st, d, mask, Unnamed, false, false);
            var second := Selection(first.state, first.data, again, Unnamed, false, false);
            && second.data.handle == st.next + 1
            && |Previous(second.state, second.data)| == |Previous(st, d)| + 2
  {
  }

  /** `cut(d, bools)`: the selection with every mask entry flipped. */
  function Cut<T>(st: CutState, d: Dataset<T>, mask: seq<bool>, desc: string,
                  forceRepeat: bool, invert: bool): (r: Selected<T>)
    requires |mask| == |d.rows|
    requires Issued(st) && d.handle < st.next
    ensures Skips(Previous(st, d), desc, forceRepeat) ==> r == Selected(st, d, |d.rows|, |d.rows|)
    ensures !Skips(Previous(st, d), desc, forceRepeat) ==>
      && r.nAfter == |d.rows| - CountTrue(mask)
      && |r.data.rows| == |TrueIndices(Negate(mask))|
      && (forall k :: 0 <= k < |r.data.rows| ==>
            var i := TrueIndices(Negate(mask))[k]; i < |d.rows| && !mask[i] && r.data.rows[k] == d.rows[i])
      && r.data.handle == st.next && r.state.next == st.next + 1
      && Previous(r.state, r.data) == Previous(st, d) + [CutRecord(desc, |d.rows|, r.nAfter)]
    ensures forall h :: h in st.history ==> h in r.state.history && r.state.history[h] == st.history[h]
    ensures forall h :: h in r.state.history ==> h in st.history || h == r.data.handle
    ensures Issued(r.state) && r.data.handle < r.state.next
  {
    var r := Selection(st, d, Negate(mask), desc, forceRepeat, invert);
    CountAndNegation(mask);
    r
  }

  /** On a frame where neither is skipped, a selection and the cut with the
      same mask share the rows out between them. */
  lemma CutComplementsSelection<T>(st: CutState, d: Dataset<T>, mask: seq<bool>, desc: string,
                                   forceRepeat: bool, invert: bool)
    requires |mask| == |d.rows| && Issued(st) && d.handle < st.next
    requires !Skips(Previous(st, d), desc, forceRepeat)
    ensures var kept := Selection(st, d, mask, desc, forceRepeat, invert);
            var removed := Cut(st, d, mask, desc, forceRepeat, invert);
            && multiset(kept.data.rows) + multiset(removed.data.rows) == multiset(d.rows)
            && kept.nAfter + removed.nAfter == |d.rows|
  {
    KeepIsPickOfTrueIndices(d.rows, mask);
    KeepIsPickOfTrueIndices(d.rows, Negate(mask));
    KeepAndNegationPartition(d.rows, mask);
    CountAndNegation(mask);
  }

  /** A column of the frame: its name and its value on each row. */
  datatype Axis<!T> = Axis(name: string, value: T -> real)

  /** `bounds[0] < d[axis] < bounds[1]`: both bounds strict. */
  function Within<T>(axis: Axis<T>, lo: real, hi: real): T -> bool {
    x => lo < axis.value(x) < hi
  }

  function Outside<T>(axis: Axis<T>, lo: real, hi: real): T -> bool {
    x => !(lo < axis.value(x) < hi)
  }

  /** The description a range selection records: the caller's, or one built
      from the axis and the bounds (`show` renders a bound as `%s` would). */
  function RangeDesc<T>(axis: Axis<T>, lo: real, hi: real, desc: Option<string>,
                        invert: bool, show: real -> string): (s: string)
    ensures desc.Some? ==> s == desc.value
    ensures desc.None? ==> |s| > |axis.name| && s[..|axis.name|] == axis.name && s[|s| - 1] == ')'
    ensures desc.None? && invert ==>
              && |s| >= |axis.name| + 9
              && s[|axis.name|..|axis.name| + 9] == " NOT in ["
              && s[|axis.name| + 9..] == show(lo) + ", " + show(hi) + ")"
    ensures desc.None? && !invert ==>
              && |s| >= |axis.name| + 5
              && s[|axis.name|..|axis.name| + 5] == " in ["
              && s[|axis.name| + 5..] == show(lo) + ", " + show(hi) + ")"
  {
    match desc
    case Some(given) => given
    case None =>
      var opening := if invert then " NOT in [" else " in [";
      var bounds := show(lo) + ", " + show(hi) + ")";
      var full := axis.name + opening + bounds;
      assert full == axis.name + (opening + bounds);
      assert full[..|axis.name|] == axis.name;
      assert full[|axis.name|..|axis.name| + |opening|] == opening;
      assert full[|axis.name| + |opening|..] == bounds;
      full
  }

  /** The default descriptions of a range cut and of a range selection over
      the same axis and bounds differ, so neither is skipped as a repeat of
      the other. */
  lemma DefaultRangeDescsDiffer<T>(axis: Axis<T>, lo: real, hi: real, show: real -> string)
    ensures RangeDesc(axis, lo, hi, None, true, show) != RangeDesc(axis, lo, hi, None, false, show)
  {
    var n := |axis.name|;
    var cutDesc := RangeDesc(axis, lo, hi, None, true, show);
    var selDesc := RangeDesc(axis, lo, hi, None, false, show);
    assert cutDesc[n + 1] == cutDesc[n..n + 9][1] == 'N';
    assert selDesc[n + 1] == selDesc[n..n + 5][1] == 'i';
  }

  /** `range_selection(d, axis, (lo, hi), desc=..., _invert=invert, force_repeat=...)`. */
  function RangeSelection<T>(st: CutState, d: Dataset<T>, axis: Axis<T>, lo: real, hi: real,
                             desc: Option<string>, forceRepeat: bool, invert: bool,
                             show: real -> string): (r: Selected<T>)
    requires Issued(st) && d.handle < st.next
    ensures var chosen := RangeDesc(axis, lo, hi, desc, invert, show);
            && (Skips(Previous(st, d), chosen, forceRepeat) ==> r == Selected(st, d, |d.rows|, |d.rows|))
            && (!Skips(Previous(st, d), chosen, forceRepeat) ==>
                  && r.data.rows == Filter(d.rows, Within(axis, lo, hi))
                  && r.data.handle == st.next && r.state.next == st.next + 1
                  && Previous(r.state, r.data) == Previous(st, d) + [CutRecord(chosen, |d.rows|, |r.data.rows|)])
    ensures Issued(r.state) && r.data.handle < r.state.next
    ensures forall h :: h in st.history ==> h in r.state.history && r.state.history[h] == st.history[h]
    ensures forall h :: h in r.state.history ==> h in st.history || h == r.data.handle
  {
    var mask := MaskOf(d.rows, Within(axis, lo, hi));
    KeepIsPickOfTrueIndices(d.rows, mask);
    KeepMaskIsFilter(d.rows, Within(axis, lo, hi));
    Selection(st, d, mask, RangeDesc(axis, lo, hi, desc, invert, show), forceRepeat, invert)
  }

  /** `range_cut`: sets `_invert` and calls the range selection. Since the
      selection never consults `_invert`, only the default description changes:
      the rows inside the range are the ones kept. */
  function RangeCut<T>(st: CutState, d: Dataset<T>, axis: Axis<T>, lo: real, hi: real,
                       desc: Option<string>, forceRepeat: bool,
                       show: real -> string): (r: Selected<T>)
    requires Issued(st) && d.handle < st.next
    ensures var chosen := RangeDesc(axis, lo, hi, desc, true, show);
            && (Skips(Previous(st, d), chosen, forceRepeat) ==> r == Selected(st, d, |d.rows|, |d.rows|))
            && (!Skips(Previous(st, d), chosen, forceRepeat) ==>
                  && r.data.rows == Filter(d.rows, Within(axis, lo, hi))
                  && r.data.handle == st.next && r.state.next == st.next + 1
                  && Previous(r.state, r.data) == Previous(st, d) + [CutRecord(chosen, |d.rows|, |r.data.rows|)])
    ensures Issued(r.state) && r.data.handle < r.state.next
    ensures forall h :: h in st.history ==> h in r.state.history && r.state.history[h] == st.history[h]
    ensures forall h :: h in r.state.history ==> h in st.history || h == r.data.handle
    ensures desc.None? ==> RangeDesc(axis, lo, hi, desc, true, show) != RangeDesc(axis, lo, hi, desc, false, show)
    ensures desc.Some? ==> r == RangeSelection(st, d, axis, lo, hi, desc, forceRepeat, false, show)
  {
    DefaultRangeDescsDiffer(axis, lo, hi, show);
    RangeSelection(st, d, axis, lo, hi, desc, forceRepeat, true, show)
  }

  /** The range cut of the values 1 and 5 by the range (0, 2) keeps 1, the
      value inside the range, and drops 5. */
  lemma RangeCutKeepsTheRange()
    ensures var axis := Axis("x", (v: real) => v);
            var (st, d) := Allocate(Start, [1.0, 5.0]);
            RangeCut(st, d, axis, 0.0, 2.0, None, false, (b: real) => "b").data.rows == [1.0]
  {
    var axis := Axis("x", (v: real) => v);
    var (st, d) := Allocate(Start, [1.0, 5.0]);
    var p := Within(axis, 0.0, 2.0);
    assert Previous(st, d) == [];
    assert [1.0, 5.0][..1] == [1.0];
    assert Filter([1.0], p) == [1.0];
    assert Filter([1.0, 5.0], p) == [1.0];
  }

  /** The range cut as its description says: drop the rows inside the range. */
  function RangeCutInverted<T>(st: CutState, d: Dataset<T>, axis: Axis<T>, lo: real, hi: real,
                               desc: Option<string>, forceRepeat: bool,
                               show: real -> string): (r: Selected<T>)
    requires Issued(st) && d.handle < st.next
    ensures var chosen := RangeDesc(axis, lo, hi, desc, true, show);
            !Skips(Previous(st, d), chosen, forceRepeat) ==>
              && r.data.rows == Filter(d.rows, Outside(axis, lo, hi))
              && Previous(r.state, r.data) == Previous(st, d) + [CutRecord(chosen, |d.rows|, |r.data.rows|)]
  {
    var inside := MaskOf(d.rows, Within(axis, lo, hi));
    assert Negate(inside) == MaskOf(d.rows, Outside(axis, lo, hi));
    KeepIsPickOfTrueIndices(d.rows, Negate(inside));
    KeepMaskIsFilter(d.rows, Outside(axis, lo, hi));
    Cut(st, d, inside, RangeDesc(axis, lo, hi, desc, true, show), forceRepeat, true)
  }

  /** One `(axis, (lo, hi))` tuple of `range_selections`. */
  datatype Range<!T> = Range(axis: Axis<T>, lo: real, hi: real)

  predicate InAll<T>(ranges: seq<Range<T>>, x: T) {
    forall k :: 0 <= k < |ranges| ==> ranges[k].lo < ranges[k].axis.value(x) < ranges[k].hi
  }

  function WithinAll<T>(ranges: seq<Range<T>>): T -> bool {
    x => InAll(ranges, x)
  }

  /** A caller's description gets the axis name appended, so that each step
      of a multi-range selection has its own. */
  function StepDesc(desc: Option<string>, axis: string): (r: Option<string>)
    ensures r.None? <==> desc.None?
    ensures r.Some? ==> |r.value| >= |desc.value| && r.value[..|desc.value|] == desc.value
                        && r.value[|desc.value|..] == " (" + axis + ")"
  {
    match desc
    case None => None
    case Some(given) =>
      var full := given + " (" + axis + ")";
      assert full[..|given|] == given && full[|given|..] == " (" + axis + ")";
      Some(full)
  }

  /** The description the step for range `rg` records: the caller's with
      ` (axis)` appended, or the default built from the range. */
  function StepRangeDesc<T>(rg: Range<T>, desc: Option<string>, invert: bool, show: real -> string): string {
    RangeDesc(rg.axis, rg.lo, rg.hi, StepDesc(desc, rg.axis.name), invert, show)
  }

  /** `range_selections(d, *ranges, desc=..., force_repeat=...)`: one range
      selection per tuple, from left to right, each on the previous result.
      With `force_repeat` every step is carried out, so the result holds
      exactly the rows inside every range, and the history gains one record
      per range, described as `desc + " (axis)"` (or by that range's default
      description when no `desc` is given). */
  function RangeSelections<T>(st: CutState, d: Dataset<T>, ranges: seq<Range<T>>,
                              desc: Option<string>, forceRepeat: bool, invert: bool,
                              show: real -> string): (r: (CutState, Dataset<T>))
    requires Issued(st) && d.handle < st.next
    decreases |ranges|
    ensures Issued(r.0) && r.1.handle < r.0.next
    ensures forall h :: h in st.history ==> h in r.0.history && r.0.history[h] == st.history[h]
    ensures st.next <= r.0.next
    ensures forall h :: h in r.0.history ==> h in st.history || st.next <= h
    ensures forceRepeat ==> r.1.rows == Filter(d.rows, WithinAll(ranges))
    ensures forceRepeat ==>
              RecordsSteps(Previous(st, d), Previous(r.0, r.1), StepDescs(ranges, desc, invert, show))
  {
    if |ranges| == 0 then
      NoRangeKeepsEverything(d.rows, ranges);
      assert Previous(st, d)[..|Previous(st, d)|] == Previous(st, d);
      (st, d)
    else
      var first := ranges[0];
      var step := RangeSelection(st, d, first.axis, first.lo, first.hi,
                                 StepDesc(desc, first.axis.name), forceRepeat, invert, show);
      var r := RangeSelections(step.state, step.data, ranges[1..], desc, forceRepeat, invert, show);
      if forceRepeat then
        ForcedStepRecords(st, d, first, desc, invert, show);
        FirstRangeThenTheRest(d.rows, ranges);
        ForcedStepsCompose(Previous(st, d), Previous(step.state, step.data), Previous(r.0, r.1),
                           ranges, desc, invert, show);
        r
      else
        r
  }

  /** The records of the first forced step, then those of the rest. */
  lemma ForcedStepsCompose<T>(prev: seq<CutRecord>, mid: seq<CutRecord>, last: seq<CutRecord>,
                              ranges: seq<Range<T>>, desc: Option<string>, invert: bool,
                              show: real -> string)
    requires |ranges| > 0
    requires |mid| == |prev| + 1 && mid[..|prev|] == prev
    requires mid[|prev|].desc == StepRangeDesc(ranges[0], desc, invert, show)
    requires RecordsSteps(mid, last, StepDescs(ranges[1..], desc, invert, show))
    ensures RecordsSteps(prev, last, StepDescs(ranges, desc, invert, show))
  {
    var descs := StepDescs(ranges, desc, invert, show);
    assert descs[1..] == StepDescs(ranges[1..], desc, invert, show);
    RecordsStepsCons(prev, mid, last, descs);
  }

  /** Every step of a multi-range selection keeps the histories chained. */
  lemma {:induction false} RangeSelectionsKeepHistoriesChained<T>(
    st: CutState, d: Dataset<T>, ranges: seq<Range<T>>,
    desc: Option<string>, forceRepeat: bool, invert: bool, show: real -> string)
    requires Valid(st) && Tracked(st, d)
    decreases |ranges|
    ensures var r := RangeSelections(st, d, ranges, desc, forceRepeat, invert, show);
            Valid(r.0) && Tracked(r.0, r.1)
  {
    if |ranges| > 0 {
      var first := ranges[0];
      var chosen := RangeDesc(first.axis, first.lo, first.hi, StepDesc(desc, first.axis.name), invert, show);
      var mask := MaskOf(d.rows, Within(first.axis, first.lo, first.hi));
      SelectionKeepsHistoriesChained(st, d, mask, chosen, forceRepeat, invert);
      var step := RangeSelection(st, d, first.axis, first.lo, first.hi,
                                 StepDesc(desc, first.axis.name), forceRepeat, invert, show);
      assert step == Selection(st, d, mask, chosen, forceRepeat, invert);
      RangeSelectionsKeepHistoriesChained(step.state, step.data, ranges[1..], desc, forceRepeat, invert, show);
    }
  }

  /** The descriptions the steps of a multi-range selection record, in order. */
  function StepDescs<T>(ranges: seq<Range<T>>, desc: Option<string>, invert: bool,
                        show: real -> string): (r: seq<string>)
    ensures |r| == |ranges|
    ensures forall k :: 0 <= k < |ranges| ==> r[k] == StepRangeDesc(ranges[k], desc, invert, show)
  {
    if |ranges| == 0 then []
    else [StepRangeDesc(ranges[0], desc, invert, show)] + StepDescs(ranges[1..], desc, invert, show)
  }

  /** `h` is `prev` followed by one record per description, in order. */
  predicate RecordsSteps(prev: seq<CutRecord>, h: seq<CutRecord>, descs: seq<string>) {
    && |h| == |prev| + |descs|
    && h[..|prev|] == prev
    && forall k :: 0 <= k < |descs| ==> h[|prev| + k].desc == descs[k]
  }

  /** A forced step appends exactly its own record. */
  lemma ForcedStepRecords<T>(st: CutState, d: Dataset<T>, rg: Range<T>,
                             desc: Option<string>, invert: bool, show: real -> string)
    requires Issued(st) && d.handle < st.next
    ensures var step := RangeSelection(st, d, rg.axis, rg.lo, rg.hi, StepDesc(desc, rg.axis.name), true, invert, show);
            && |Previous(step.state, step.data)| == |Previous(st, d)| + 1
            && Previous(step.state, step.data)[..|Previous(st, d)|] == Previous(st, d)
            && Previous(step.state, step.data)[|Previous(st, d)|].desc == StepRangeDesc(rg, desc, invert, show)
  {
    var step := RangeSelection(st, d, rg.axis, rg.lo, rg.hi, StepDesc(desc, rg.axis.name), true, invert, show);
    var chosen := StepRangeDesc(rg, desc, invert, show);
    assert !Skips(Previous(st, d), chosen, true);
    assert Previous(step.state, step.data) == Previous(st, d) + [CutRecord(chosen, |d.rows|, |step.data.rows|)];
  }

  /** The first description's record on top of `prev`, then the records of the rest. */
  lemma RecordsStepsCons(prev: seq<CutRecord>, mid: seq<CutRecord>, last: seq<CutRecord>, descs: seq<string>)
    requires |descs| > 0
    requires |mid| == |prev| + 1 && mid[..|prev|] == prev && mid[|prev|].desc == descs[0]
    requires RecordsSteps(mid, last, descs[1..])
    ensures RecordsSteps(prev, last, descs)
  {
    assert last[..|prev|] == last[..|mid|][..|prev|];
    assert last[|prev|] == last[..|mid|][|prev|];
    forall k | 1 <= k < |descs|
      ensures last[|prev| + k].desc == descs[k]
    {
      assert descs[k] == descs[1..][k - 1];
      assert |prev| + k == |mid| + (k - 1);
    }
  }

  lemma NoRangeKeepsEverything<T>(rows: seq<T>, ranges: seq<Range<T>>)
    requires |ranges| == 0
    ensures Filter(rows, WithinAll(ranges)) == rows
  {
    FilterKeepsAll(rows, WithinAll(ranges));
  }

  /** Being inside every range is being inside the first and inside the rest. */
  lemma InAllUnfold<T>(ranges: seq<Range<T>>, x: T)
    requires |ranges| > 0
    ensures InAll(ranges, x)
        == (ranges[0].lo < ranges[0].axis.value(x) < ranges[0].hi && InAll(ranges[1..], x))
  {
    if ranges[0].lo < ranges[0].axis.value(x) < ranges[0].hi && InAll(ranges[1..], x) {
      forall k | 1 <= k < |ranges|
        ensures ranges[k].lo < ranges[k].axis.value(x) < ranges[k].hi
      {
        assert ranges[k] == ranges[1..][k - 1];
      }
    }
  }

  lemma FirstRangeThenTheRest<T>(rows: seq<T>, ranges: seq<Range<T>>)
    requires |ranges| > 0
    ensures Filter(Filter(rows, Within(ranges[0].axis, ranges[0].lo, ranges[0].hi)), WithinAll(ranges[1..]))
         == Filter(rows, WithinAll(ranges))
  {
    var p := Within(ranges[0].axis, ranges[0].lo, ranges[0].hi);
    var q := WithinAll(ranges[1..]);
    FilterFilter(rows, p, q);
    forall i | 0 <= i < |rows| ensures (p(rows[i]) && q(rows[i])) == WithinAll(ranges)(rows[i]) {
      InAllUnfold(ranges, rows[i]);
    }
    FilterCongruent(rows, x => p(x) && q(x), WithinAll(ranges));
  }

  /** A predicate every row satisfies filters nothing out. */
  lemma {:induction false} FilterKeepsAll<T>(rows: seq<T>, p: T -> bool)
    requires forall i :: 0 <= i < |rows| ==> p(rows[i])
    ensures Filter(rows, p) == rows
  {
    if |rows| > 0 {
      var n := |rows| - 1;
      var prefix := rows[..n];
      assert forall i :: 0 <= i < |prefix| ==> prefix[i] == rows[i];
      FilterKeepsAll(prefix, p);
      assert p(rows[n]);
      assert Filter(rows, p) == Filter(prefix, p) + [rows[n]];
      assert rows == prefix + [rows[n]];
    }
  }

  /** One row of `history(d)`; the fractions are left out. */
  datatype HistoryRow = HistoryRow(desc: string, nBefore: nat, nAfter: nat, nRemoved: int)

  /** `history(d)`: the cut history of a frame a cut produced. */
  function History<T>(st: CutState, d: Dataset<T>): (r: Result<seq<HistoryRow>, Error>)
    ensures r.Failure? <==> d.handle !in st.history
    ensures r.Failure? ==> r.error == NoCutHistory
    ensures r.Success? ==>
      && |r.value| == |st.history[d.handle]|
      && forall k :: 0 <= k < |r.value| ==>
           && r.value[k].desc == st.history[d.handle][k].desc
           && r.value[k].nBefore == st.history[d.handle][k].nBefore
           && r.value[k].nAfter == st.history[d.handle][k].nAfter
           && r.value[k].nBefore == r.value[k].nAfter + r.value[k].nRemoved
    ensures r.Success? && Valid(st) ==>
      |r.value| > 0 && forall k :: 0 <= k < |r.value| ==> r.value[k].nRemoved >= 0
  {
    if d.handle !in st.history then Failure(NoCutHistory)
    else
      var h := st.history[d.handle];
      Success(seq(|h|, k requires 0 <= k < |h| =>
        HistoryRow(h[k].desc, h[k].nBefore, h[k].nAfter, h[k].nBefore - h[k].nAfter)))
  }

  function TotalRemoved(rows: seq<HistoryRow>): int {
    if |rows| == 0 then 0 else TotalRemoved(rows[..|rows| - 1]) + rows[|rows| - 1].nRemoved
  }

  /** The removals of a chained history add up to the rows lost since the
      first cut. */
  lemma {:induction false} RemovalsTelescope(rows: seq<HistoryRow>)
    requires |rows| > 0
    requires forall k :: 0 <= k < |rows| ==> rows[k].nBefore == rows[k].nAfter + rows[k].nRemoved
    requires forall k :: 0 <= k < |rows| - 1 ==> rows[k].nAfter == rows[k + 1].nBefore
    ensures TotalRemoved(rows) == rows[0].nBefore - rows[|rows| - 1].nAfter
  {
    if |rows| > 1 {
      RemovalsTelescope(rows[..|rows| - 1]);
    }
  }

  /** For a frame in a valid state, the history's removals add up to the rows
      between the first cut's input and the frame itself. */
  lemma HistoryAccountsForEveryRow<T>(st: CutState, d: Dataset<T>)
    requires Valid(st) && Tracked(st, d)
    requires d.handle in st.history
    ensures History(st, d).Success?
    ensures var rows := History(st, d).value;
            TotalRemoved(rows) == rows[0].nBefore - |d.rows|
  {
    var rows := History(st, d).value;
    var h := st.history[d.handle];
    assert Chained(h);
    RemovalsTelescope(rows);
  }
}

=== FILE: geometry.dfy ===
/** The arithmetic of the field-distortion corrections, over the reals, with
    the square root supplied by the caller and constrained by `IsSqrt`. */
module Geometry {

  function Abs(x: real): (r: real)
    ensures r >= 0.0 && (r == x || r == -x)
  {
    if x < 0.0 then -x else x
  }

  /** `sqrt` is a non-negative square root on the non-negative reals. */
  ghost predicate IsSqrt(sqrt: real -> real) {
    forall a :: 0.0 <= a ==> 0.0 <= sqrt(a) && sqrt(a) * sqrt(a) == a
  }

  /** A reconstructed position with its distance from the detector axis. */
  datatype Observed = Observed(x: real, y: real, r: real)

  /** `r` really is the distance of `(x, y)` from the axis. */
  predicate OnCircle(o: Observed) {
    o.r >= 0.0 && o.r * o.r == o.x * o.x + o.y * o.y
  }

  /** `(x, y, sqrt(x ** 2 + y ** 2))`. */
  function Observe(sqrt: real -> real, x: real, y: real): (o: Observed)
    ensures o.x == x && o.y == y
    ensures IsSqrt(sqrt) ==> OnCircle(o)
  {
    RadiusOfObserved(sqrt, x, y);
    Observed(x, y, sqrt(x * x + y * y))
  }

  /** The position moved radially to radius `r`: `x` and `y` are both
      multiplied by `r / o.r`. */
  datatype Scaled = Scaled(x: real, y: real)

  function ScaleTo(o: Observed, r: real): (s: Scaled)
    requires o.r != 0.0
    ensures s.x * o.y == s.y * o.x
    ensures s.x * o.r == r * o.x && s.y * o.r == r * o.y
    ensures OnCircle(o) ==> s.x * s.x + s.y * s.y == r * r
  {
    var k := r / o.r;
    assert k * o.r == r;
    var s := Scaled(k * o.x, k * o.y);
    assert s.x * s.x + s.y * s.y == k * k * (o.x * o.x + o.y * o.y);
    assert OnCircle(o) ==> k * k * (o.r * o.r) == (k * o.r) * (k * o.r);
    s
  }

  /** The z branch of the 3D correction: the radial shift `dr` is projected
      onto the (negative) drift axis unless that would take the root of a
      negative number, in which case `z` is kept. */
  function ZProjection(sqrt: real -> real, z: real, dr: real): (z3: real)
    ensures Abs(z) <= Abs(dr) ==> z3 == z
    ensures IsSqrt(sqrt) && Abs(z) > Abs(dr) ==> z3 <= 0.0 && z3 * z3 == z * z - dr * dr
  {
    if Abs(z) > Abs(dr) then
      SquareGap(z, dr);
      -sqrt(z * z - dr * dr)
    else
      z
  }

  lemma SquarePositive(x: real)
    ensures x * x >= 0.0
    ensures x != 0.0 ==> x * x > 0.0
  {
    if x < 0.0 {
      assert x * x == (-x) * (-x);
    }
  }

  /** Squaring is strictly increasing on the non-negative reals. */
  lemma SquareMonotone(u: real, v: real)
    requires 0.0 <= u < v
    ensures u * u < v * v
  {
    var uu, uv, vv := u * u, u * v, v * v;
    assert uu <= uv by { assert u * (v - u) >= 0.0; }
    assert uv < vv by { assert (v - u) * v > 0.0; }
  }

  lemma RadiusOfObserved(sqrt: real -> real, x: real, y: real)
    ensures IsSqrt(sqrt) ==> OnCircle(Observed(x, y, sqrt(x * x + y * y)))
  {
    SquarePositive(x);
    SquarePositive(y);
  }

  /** `|z| > |dr|` makes `z ** 2 - dr ** 2` positive. */
  lemma SquareGap(z: real, dr: real)
    requires Abs(z) > Abs(dr)
    ensures z * z - dr * dr > 0.0
  {
    var a, d := Abs(z), Abs(dr);
    assert z * z == a * a;
    assert dr * dr == d * d;
    SquareMonotone(d, a);
  }

  /** A non-negative number whose square is `z ** 2` is `|z|`. */
  lemma RootOfSquare(z: real, s: real)
    requires s >= 0.0 && s * s == z * z
    ensures s == Abs(z)
  {
    var a := Abs(z);
    assert a * a == z * z;
    if s < a {
      SquareMonotone(s, a);
    } else if a < s {
      SquareMonotone(a, s);
    }
  }

  /** With no radial shift the z branch maps every `z` to `-|z|`: it keeps
      positions below the gate and flips those above it. */
  lemma ZeroShiftFoldsOntoNegativeAxis(sqrt: real -> real, z: real)
    requires IsSqrt(sqrt)
    ensures ZProjection(sqrt, z, 0.0) == -Abs(z)
    ensures z < 0.0 ==> ZProjection(sqrt, z, 0.0) == z
  {
    var z3 := ZProjection(sqrt, z, 0.0);
    assert z3 * z3 == z * z;
    RootOfSquare(z, -z3);
  }
}

=== FILE: lifetime.dfy ===
/** Selection of the electron-lifetime multiplier of the S2 correction
    (`extract_data`, the block under "include electron lifetime correction"). */
module Lifetime {
  import opened Wrappers
  import opened Errors
  import opened Registry

  /** The run a `Corrections` instance processes: its number, whether it is
      simulated data, its start time in seconds since the Unix epoch, and the
      class-level lifetime interpolant (absent when no lifetime document could
      be read). The interpolant answers `None` outside its table, where
      `interp1d` raises. */
  datatype Session = Session(
    runNumber: int,
    mcData: bool,
    runStartSeconds: real,
    elifeInterpolation: Option<real -> Option<real>>)

  /** The configuration key of the simulated electron lifetime. */
  const McLifetimeName := "mc_electron_lifetime_liquid"

  /** The multiplier and, when the interpolant was used, the time stamp `ts`. */
  datatype LifetimeCorrection = LifetimeCorrection(factor: real, ts: Option<real>)

  /** `exp((drift_time / 1e3) / lifetime)`. */
  function Attenuation(exp: real -> real, driftTime: real, lifetime: real): real
    requires lifetime != 0.0
  {
    exp((driftTime / 1000.0) / lifetime)
  }

  /** The lifetime multiplier for an interaction with the given drift time. */
  function LifetimeFactor(exp: real -> real, cfg: Config, s: Session, driftTime: real): (r: Result<LifetimeCorrection, Error>)
    ensures !s.mcData && s.elifeInterpolation.None? ==> r == Success(LifetimeCorrection(1.0, None))
    ensures s.mcData ==> (r.Success? <==> exists t :: GetCorrection(cfg, McLifetimeName, s.runNumber) == Some(Number(t)) && t != 0.0)
    ensures s.mcData && r.Success? ==>
              && r.value.ts.None?
              && r.value.factor == Attenuation(exp, driftTime, GetCorrection(cfg, McLifetimeName, s.runNumber).value.number)
    ensures !s.mcData && s.elifeInterpolation.Some? ==>
              (r.Success? <==> exists l :: s.elifeInterpolation.value(s.runStartSeconds) == Some(l) && l != 0.0)
    ensures !s.mcData && r.Success? && s.elifeInterpolation.Some? ==>
              && r.value.ts == Some(s.runStartSeconds)
              && r.value.factor == Attenuation(exp, driftTime, s.elifeInterpolation.value(s.runStartSeconds).value)
    ensures s.mcData && !(GetCorrection(cfg, McLifetimeName, s.runNumber).Some?
                          && GetCorrection(cfg, McLifetimeName, s.runNumber).value.Number?) ==>
              r == Failure(LifetimeNotNumeric)
    ensures s.mcData && GetCorrection(cfg, McLifetimeName, s.runNumber) == Some(Number(0.0)) ==>
              r == Failure(LifetimeZero)
    ensures !s.mcData && s.elifeInterpolation.Some? && s.elifeInterpolation.value(s.runStartSeconds).None? ==>
              r == Failure(LifetimeOutOfRange(s.runStartSeconds))
    ensures !s.mcData && s.elifeInterpolation.Some? && s.elifeInterpolation.value(s.runStartSeconds) == Some(0.0) ==>
              r == Failure(LifetimeZero)
  {
    if s.mcData then
      match GetCorrection(cfg, McLifetimeName, s.runNumber)
      case Some(Number(t)) =>
        if t == 0.0 then Failure(LifetimeZero)
        else Success(LifetimeCorrection(Attenuation(exp, driftTime, t), None))
      case _ => Failure(LifetimeNotNumeric)
    else if s.elifeInterpolation.Some? then
      var ts := s.runStartSeconds;
      match s.elifeInterpolation.value(ts)
      case None => Failure(LifetimeOutOfRange(ts))
      case Some(l) =>
        if l == 0.0 then Failure(LifetimeZero)
        else Success(LifetimeCorrection(Attenuation(exp, driftTime, l), Some(ts)))
    else
      Success(LifetimeCorrection(1.0, None))
  }

  /** Simulated data never consults the interpolant, whichever one is loaded. */
  lemma McIgnoresInterpolation(exp: real -> real, cfg: Config, s: Session, other: Option<real -> Option<real>>, driftTime: real)
    requires s.mcData
    ensures LifetimeFactor(exp, cfg, s, driftTime) == LifetimeFactor(exp, cfg, s.(elifeInterpolation := other), driftTime)
  {
  }
}

=== FILE: map_cache.dfy ===
/** The one-slot memo `Corrections.load_map` and the five cache slots that
    `extract_data` threads through it. */
module MapCache {
  import opened Wrappers
  import opened Errors
  import opened Registry

  /** An interpolation map, identified by the file it was loaded from; its
      values are supplied by the caller (see `Cascade.Env`). */
  datatype InterpMap = InterpMap(file: string)

  /** A cache slot: the loaded map and the name it was loaded for. */
  datatype Slot = Slot(loaded: Option<InterpMap>, name: Option<Value>)

  /** The class attributes before the first event: no map, no name. */
  const EmptySlot := Slot(None, None)

  /** A slot never holds a map other than the one its recorded name denotes. */
  predicate Consistent(s: Slot) {
    match s.loaded
    case None => s.name.None?
    case Some(m) => s.name == Some(Text(m.file))
  }

  /** Loading the map a resolved name denotes. The loader succeeds only for a
      file name that `available` accepts; a resolved `None` or number fails. */
  function Load(available: string -> bool, wanted: Option<Value>): (r: Result<InterpMap, string>)
    ensures r.Success? <==> wanted.Some? && wanted.value.Text? && available(wanted.value.text)
    ensures r.Success? ==> wanted == Some(Text(r.value.file))
  {
    match wanted
    case Some(Text(f)) => if available(f) then Success(InterpMap(f)) else Failure(f)
    case _ => Failure("")
  }

  /** The outcome of `load_map`: the new slot and whether a load happened. */
  datatype Reloaded = Reloaded(slot: Slot, loaded: bool)

  /** `load_map(name, loaded_map, loaded_name)`. */
  function LoadMap(available: string -> bool, cfg: Config, run: int, name: string, slot: Slot): (r: Result<Reloaded, Error>)
    ensures slot.name == GetCorrection(cfg, name, run) ==> r == Success(Reloaded(slot, false))
    ensures slot.name != GetCorrection(cfg, name, run) && r.Success? ==>
              r.value.loaded && r.value.slot.loaded.Some? &&
              r.value.slot.name == Some(Text(r.value.slot.loaded.value.file))
    ensures r.Failure? <==> slot.name != GetCorrection(cfg, name, run) && Load(available, GetCorrection(cfg, name, run)).Failure?
    ensures r.Failure? ==> r.error == MapLoadFailed(name)
    ensures r.Success? ==> r.value.slot.name == GetCorrection(cfg, name, run)
    ensures r.Success? && Consistent(slot) ==> Consistent(r.value.slot)
  {
    var wanted := GetCorrection(cfg, name, run);
    if slot.name != wanted then
      match Load(available, wanted)
      case Success(m) => Success(Reloaded(Slot(Some(m), wanted), true))
      case Failure(_) => Failure(MapLoadFailed(name))
    else
      Success(Reloaded(slot, false))
  }

  /** The five map categories, in the order `extract_data` refreshes them. */
  datatype Category = XyMap | Fdc2dMap | Fdc3dMap | LceTpf2dMap | LceNn3dMap

  /** The configuration key each category is resolved under. */
  function CorrectionName(c: Category): string {
    match c
    case XyMap => "s2_xy_map"
    case Fdc2dMap => "fdc_2d"
    case Fdc3dMap => "fdc_3d"
    case LceTpf2dMap => "s1_lce_map_tpf_fdc_2d"
    case LceNn3dMap => "s1_lce_map_nn_fdc_3d"
  }

  const RefreshOrder: seq<Category> := [XyMap, Fdc2dMap, Fdc3dMap, LceTpf2dMap, LceNn3dMap]

  /** The five (map, name) pairs of one `Corrections` instance. */
  datatype Caches = Caches(xy: Slot, fdc2d: Slot, fdc3d: Slot, lceTpf2d: Slot, lceNn3d: Slot)

  const EmptyCaches := Caches(EmptySlot, EmptySlot, EmptySlot, EmptySlot, EmptySlot)

  /** The class attributes every instance starts from hold no map and no
      name, and are consistent. */
  lemma InitialCachesConsistent()
    ensures AllConsistent(EmptyCaches)
    ensures forall c :: Get(EmptyCaches, c) == EmptySlot
  {
  }

  function Get(cs: Caches, c: Category): Slot {
    match c
    case XyMap => cs.xy
    case Fdc2dMap => cs.fdc2d
    case Fdc3dMap => cs.fdc3d
    case LceTpf2dMap => cs.lceTpf2d
    case LceNn3dMap => cs.lceNn3d
  }

  /** Replaces one slot. */
  function Set(cs: Caches, c: Category, s: Slot): (r: Caches)
    ensures Get(r, c) == s
    ensures forall d :: d != c ==> Get(r, d) == Get(cs, d)
  {
    match c
    case XyMap => cs.(xy := s)
    case Fdc2dMap => cs.(fdc2d := s)
    case Fdc3dMap => cs.(fdc3d := s)
    case LceTpf2dMap => cs.(lceTpf2d := s)
    case LceNn3dMap => cs.(lceNn3d := s)
  }

  predicate AllConsistent(cs: Caches) {
    forall c :: Consistent(Get(cs, c))
  }

  /** The slot of `c` already records the name the registry resolves to. */
  predicate Current(cfg: Config, run: int, cs: Caches, c: Category) {
    Get(cs, c).name == GetCorrection(cfg, CorrectionName(c), run)
  }

  /** How many of `cats` have a stale slot in `cs`. */
  function StaleCount(cfg: Config, run: int, cs: Caches, cats: seq<Category>): (n: nat)
    ensures n <= |cats|
    ensures n == 0 <==> forall i :: 0 <= i < |cats| ==> Current(cfg, run, cs, cats[i])
  {
    if |cats| == 0 then 0
    else (if Current(cfg, run, cs, cats[0]) then 0 else 1) + StaleCount(cfg, run, cs, cats[1..])
  }

  predicate Distinct(cats: seq<Category>) {
    forall i, j :: 0 <= i < j < |cats| ==> cats[i] != cats[j]
  }

  /** One statement `self.m, self.n = self.load_map(name, self.m, self.n)`. */
  function RefreshSlot(available: string -> bool, cfg: Config, run: int, cs: Caches, c: Category): (r: Result<(Caches, bool), Error>)
    ensures r.Success? ==> forall d :: d != c ==> Get(r.value.0, d) == Get(cs, d)
    ensures r.Success? ==> Current(cfg, run, r.value.0, c)
    ensures r.Success? ==> (r.value.1 <==> !Current(cfg, run, cs, c))
    ensures Current(cfg, run, cs, c) ==> r == Success((cs, false))
    ensures r.Success? && AllConsistent(cs) ==> AllConsistent(r.value.0)
  {
    var rl :- LoadMap(available, cfg, run, CorrectionName(c), Get(cs, c));
    Success((Set(cs, c, rl.slot), rl.loaded))
  }

  /** The state after refreshing a list of slots in order: the caches (which
      keep the slots refreshed before a failing load), the number of loads,
      and the failure, if any. */
  datatype Refresh = Refresh(caches: Caches, loads: nat, error: Option<Error>)

  function RefreshAll(available: string -> bool, cfg: Config, run: int, cs: Caches, cats: seq<Category>): (r: Refresh)
    requires Distinct(cats)
    ensures forall d :: d !in cats ==> Get(r.caches, d) == Get(cs, d)
    ensures r.error.None? ==> forall i :: 0 <= i < |cats| ==> Current(cfg, run, r.caches, cats[i])
    ensures r.error.None? ==> r.loads == StaleCount(cfg, run, cs, cats)
    ensures r.loads <= |cats|
    ensures AllConsistent(cs) ==> AllConsistent(r.caches)
    decreases |cats|
  {
    if |cats| == 0 then Refresh(cs, 0, None)
    else
      match RefreshSlot(available, cfg, run, cs, cats[0])
      case Failure(e) => Refresh(cs, 0, Some(e))
      case Success((cs1, loaded)) =>
        assert Distinct(cats[1..]);
        var rest := RefreshAll(available, cfg, run, cs1, cats[1..]);
        StaleCountOfUntouched(cfg, run, cs, cs1, cats[1..]);
        Refresh(rest.caches, rest.loads + (if loaded then 1 else 0), rest.error)
  }

  /** Stale counts only look at the listed slots. */
  lemma {:induction false} StaleCountOfUntouched(cfg: Config, run: int, cs: Caches, cs': Caches, cats: seq<Category>)
    requires forall i :: 0 <= i < |cats| ==> Get(cs, cats[i]) == Get(cs', cats[i])
    ensures StaleCount(cfg, run, cs, cats) == StaleCount(cfg, run, cs', cats)
  {
    if |cats| > 0 {
      StaleCountOfUntouched(cfg, run, cs, cs', cats[1..]);
    }
  }

  /** A refresh of `cats` over `cs` that stopped at `cats[k]`: every earlier
      slot was refreshed, the load for `cats[k]` failed, that slot and every
      later one are as they were, and the loads counted are those of the
      earlier stale slots. */
  predicate StoppedAt(available: string -> bool, cfg: Config, run: int, cs: Caches, cats: seq<Category>,
                      r: Refresh, k: int) {
    && 0 <= k < |cats|
    && (forall i :: 0 <= i < k ==> Current(cfg, run, r.caches, cats[i]))
    && (forall i :: k <= i < |cats| ==> Get(r.caches, cats[i]) == Get(cs, cats[i]))
    && !Current(cfg, run, cs, cats[k])
    && Load(available, GetCorrection(cfg, CorrectionName(cats[k]), run)).Failure?
    && r.error == Some(MapLoadFailed(CorrectionName(cats[k])))
    && r.loads == StaleCount(cfg, run, cs, cats[..k])
  }

  /** A failing refresh stops at the first slot whose load fails: the slots
      before it keep their new maps, it and the later ones are untouched. */
  lemma {:induction false} RefreshFailureStopsAtOneSlot(available: string -> bool, cfg: Config, run: int,
                                                          cs: Caches, cats: seq<Category>)
    requires Distinct(cats)
    ensures var r := RefreshAll(available, cfg, run, cs, cats);
            r.error.Some? <==> exists k :: StoppedAt(available, cfg, run, cs, cats, r, k)
    decreases |cats|
  {
    var r := RefreshAll(available, cfg, run, cs, cats);
    if r.error.Some? {
      match RefreshSlot(available, cfg, run, cs, cats[0])
      case Failure(e) =>
        assert cats[..0] == [];
        assert StoppedAt(available, cfg, run, cs, cats, r, 0);
      case Success((cs1, loaded)) =>
        assert Distinct(cats[1..]);
        var rest := RefreshAll(available, cfg, run, cs1, cats[1..]);
        RefreshFailureStopsAtOneSlot(available, cfg, run, cs1, cats[1..]);
        var k :| StoppedAt(available, cfg, run, cs1, cats[1..], rest, k);
        ShiftStop(available, cfg, run, cs, cs1, loaded, cats, rest, k);
        assert StoppedAt(available, cfg, run, cs, cats, r, k + 1);
    }
  }

  /** One refreshed slot in front of a refresh that stopped at `k` makes a
      refresh that stopped at `k + 1`. */
  lemma ShiftStop(available: string -> bool, cfg: Config, run: int, cs: Caches, cs1: Caches, loaded: bool,
                  cats: seq<Category>, rest: Refresh, k: int)
    requires Distinct(cats) && |cats| > 0
    requires RefreshSlot(available, cfg, run, cs, cats[0]) == Success((cs1, loaded))
    requires StoppedAt(available, cfg, run, cs1, cats[1..], rest, k)
    requires Get(rest.caches, cats[0]) == Get(cs1, cats[0])
    ensures StoppedAt(available, cfg, run, cs, cats,
                      Refresh(rest.caches, rest.loads + (if loaded then 1 else 0), rest.error), k + 1)
  {
    ShiftCurrent(cfg, run, rest.caches, cats, k);
    ShiftUntouched(rest.caches, cs, cs1, cats, k);
    ShiftLoads(cfg, run, cs, cs1, loaded, cats, k);
    assert cats[k + 1] == cats[1..][k];
  }

  lemma ShiftCurrent(cfg: Config, run: int, caches: Caches, cats: seq<Category>, k: int)
    requires 0 <= k < |cats| - 1
    requires Current(cfg, run, caches, cats[0])
    requires forall i :: 0 <= i < k ==> Current(cfg, run, caches, cats[1..][i])
    ensures forall i :: 0 <= i < k + 1 ==> Current(cfg, run, caches, cats[i])
  {
    forall i | 0 < i < k + 1
      ensures Current(cfg, run, caches, cats[i])
    {
      assert cats[i] == cats[1..][i - 1];
    }
  }

  lemma ShiftUntouched(caches: Caches, cs: Caches, cs1: Caches, cats: seq<Category>, k: int)
    requires Distinct(cats) && 0 <= k < |cats| - 1
    requires forall d :: d != cats[0] ==> Get(cs1, d) == Get(cs, d)
    requires forall i :: k <= i < |cats| - 1 ==> Get(caches, cats[1..][i]) == Get(cs1, cats[1..][i])
    ensures forall i :: k + 1 <= i < |cats| ==> Get(caches, cats[i]) == Get(cs, cats[i])
  {
    forall i | k + 1 <= i < |cats|
      ensures Get(caches, cats[i]) == Get(cs, cats[i])
    {
      assert cats[i] == cats[1..][i - 1];
      assert cats[i] != cats[0];
    }
  }

  lemma ShiftLoads(cfg: Config, run: int, cs: Caches, cs1: Caches, loaded: bool, cats: seq<Category>, k: int)
    requires Distinct(cats) && 0 <= k < |cats| - 1
    requires forall d :: d != cats[0] ==> Get(cs1, d) == Get(cs, d)
    requires loaded <==> !Current(cfg, run, cs, cats[0])
    ensures StaleCount(cfg, run, cs, cats[..k + 1])
         == StaleCount(cfg, run, cs1, cats[1..][..k]) + (if loaded then 1 else 0)
  {
    var tail := cats[1..][..k];
    assert cats[..k + 1][1..] == tail;
    assert cats[..k + 1][0] == cats[0];
    forall i | 0 <= i < |tail|
      ensures Get(cs, tail[i]) == Get(cs1, tail[i])
    {
      assert tail[i] == cats[i + 1];
    }
    StaleCountOfUntouched(cfg, run, cs, cs1, tail);
  }

  /** Refreshing caches that already record the resolved names loads nothing
      and changes nothing, in particular right after a successful refresh. */
  lemma {:induction false} RefreshOfCurrentIsNoOp(available: string -> bool, cfg: Config, run: int, cs: Caches, cats: seq<Category>)
    requires Distinct(cats)
    requires forall i :: 0 <= i < |cats| ==> Current(cfg, run, cs, cats[i])
    ensures RefreshAll(available, cfg, run, cs, cats) == Refresh(cs, 0, None)
  {
    if |cats| > 0 {
      assert Distinct(cats[1..]);
      RefreshOfCurrentIsNoOp(available, cfg, run, cs, cats[1..]);
    }
  }

  /** A second refresh for the same run performs zero loads and keeps the caches. */
  lemma SecondRefreshLoadsNothing(available: string -> bool, cfg: Config, run: int, cs: Caches, cats: seq<Category>)
    requires Distinct(cats)
    ensures var first := RefreshAll(available, cfg, run, cs, cats);
            first.error.None? ==>
              RefreshAll(available, cfg, run, first.caches, cats) == Refresh(first.caches, 0, None)
  {
    var first := RefreshAll(available, cfg, run, cs, cats);
    if first.error.None? {
      RefreshOfCurrentIsNoOp(available, cfg, run, first.caches, cats);
    }
  }
}

=== FILE: masks.dfy ===
/** Boolean-mask indexing `d[bools]` on a sequence of rows, with an index-based
    reference definition and the filter-by-predicate view of it. */
module Masks {

  function CountTrue(mask: seq<bool>): (n: nat)
    ensures n <= |mask|
  {
    if |mask| == 0 then 0
    else CountTrue(mask[..|mask| - 1]) + (if mask[|mask| - 1] then 1 else 0)
  }

  /** The rows whose mask entry is true, in their original order. */
  function Keep<T>(rows: seq<T>, mask: seq<bool>): (r: seq<T>)
    requires |rows| == |mask|
    ensures |r| == CountTrue(mask)
  {
    if |rows| == 0 then []
    else
      var n := |rows| - 1;
      assert rows == rows[..n] + [rows[n]];
      Keep(rows[..n], mask[..n]) + (if mask[n] then [rows[n]] else [])
  }

  /** The positions of the true entries, in increasing order. */
  function TrueIndices(mask: seq<bool>): (idx: seq<nat>)
    ensures |idx| == CountTrue(mask)
    ensures forall k :: 0 <= k < |idx| ==> idx[k] < |mask| && mask[idx[k]]
    ensures forall k, l :: 0 <= k < l < |idx| ==> idx[k] < idx[l]
    ensures forall i :: 0 <= i < |mask| && mask[i] ==> i in idx
  {
    if |mask| == 0 then []
    else
      var n := |mask| - 1;
      var prefix := TrueIndices(mask[..n]);
      if mask[n] then prefix + [n] else prefix
  }

  /** The rows at the given positions. */
  function Pick<T>(rows: seq<T>, idx: seq<nat>): (r: seq<T>)
    requires forall k :: 0 <= k < |idx| ==> idx[k] < |rows|
    ensures |r| == |idx|
    ensures forall k :: 0 <= k < |idx| ==> r[k] == rows[idx[k]]
  {
    seq(|idx|, k requires 0 <= k < |idx| => rows[idx[k]])
  }

  lemma TrueIndicesSnoc(mask: seq<bool>)
    requires |mask| > 0
    ensures var n := |mask| - 1;
            TrueIndices(mask) == if mask[n] then TrueIndices(mask[..n]) + [n] else TrueIndices(mask[..n])
  {
  }

  lemma PickFromPrefix<T>(rows: seq<T>, n: nat, idx: seq<nat>)
    requires n <= |rows|
    requires forall k :: 0 <= k < |idx| ==> idx[k] < n
    ensures Pick(rows, idx) == Pick(rows[..n], idx)
  {
  }

  lemma PickSnoc<T>(rows: seq<T>, idx: seq<nat>, j: nat)
    requires j < |rows|
    requires forall k :: 0 <= k < |idx| ==> idx[k] < |rows|
    ensures Pick(rows, idx + [j]) == Pick(rows, idx) + [rows[j]]
  {
  }

  /** Masking keeps exactly the rows at the true positions, in order. */
  lemma {:induction false} KeepIsPickOfTrueIndices<T>(rows: seq<T>, mask: seq<bool>)
    requires |rows| == |mask|
    ensures Keep(rows, mask) == Pick(rows, TrueIndices(mask))
  {
    if |rows| > 0 {
      var n := |rows| - 1;
      KeepIsPickOfTrueIndices(rows[..n], mask[..n]);
      var idx := TrueIndices(mask[..n]);
      KeepSnoc(rows, mask);
      TrueIndicesSnoc(mask);
      PickFromPrefix(rows, n, idx);
      if mask[n] {
        PickSnoc(rows, idx, n);
      }
    }
  }

  /** `True ^ bools`. */
  function Negate(mask: seq<bool>): (r: seq<bool>)
    ensures |r| == |mask|
    ensures forall i :: 0 <= i < |mask| ==> r[i] == !mask[i]
  {
    seq(|mask|, i requires 0 <= i < |mask| => !mask[i])
  }

  /** Removing the last row from a masking removes it from whichever side
      its mask entry puts it on. */
  lemma KeepSnoc<T>(rows: seq<T>, mask: seq<bool>)
    requires |rows| == |mask| > 0
    ensures var n := |rows| - 1;
            Keep(rows, mask) == Keep(rows[..n], mask[..n]) + (if mask[n] then [rows[n]] else [])
  {
  }

  lemma PrefixAndLast<T>(rows: seq<T>)
    requires |rows| > 0
    ensures rows[..|rows| - 1] + [rows[|rows| - 1]] == rows
  {
  }

  lemma NegatePrefix(mask: seq<bool>, n: nat)
    requires n <= |mask|
    ensures Negate(mask)[..n] == Negate(mask[..n])
  {
  }

  lemma SplitOneMore<T>(prefix: seq<T>, x: T, kept: seq<T>, dropped: seq<T>, toKept: bool)
    requires multiset(kept) + multiset(dropped) == multiset(prefix)
    ensures var a := if toKept then kept + [x] else kept;
            var b := if toKept then dropped else dropped + [x];
            multiset(a) + multiset(b) == multiset(prefix + [x])
  {
  }

  /** A mask and its negation split the rows between them. */
  lemma {:induction false} KeepAndNegationPartition<T>(rows: seq<T>, mask: seq<bool>)
    requires |rows| == |mask|
    ensures multiset(Keep(rows, mask)) + multiset(Keep(rows, Negate(mask))) == multiset(rows)
  {
    if |rows| > 0 {
      var n := |rows| - 1;
      var neg := Negate(mask);
      NegatePrefix(mask, n);
      KeepAndNegationPartition(rows[..n], mask[..n]);
      KeepSnoc(rows, mask);
      KeepSnoc(rows, neg);
      var kept := Keep(rows[..n], mask[..n]);
      var dropped := Keep(rows[..n], neg[..n]);
      SplitOneMore(rows[..n], rows[n], kept, dropped, mask[n]);
      assert neg[n] == !mask[n];
      var a := if mask[n] then kept + [rows[n]] else kept;
      var b := if mask[n] then dropped else dropped + [rows[n]];
      assert Keep(rows, mask) == a;
      assert Keep(rows, neg) == b;
      PrefixAndLast(rows);
    } else {
      assert Keep(rows, mask) == [] && Keep(rows, Negate(mask)) == [];
    }
  }

  lemma {:induction false} CountAndNegation(mask: seq<bool>)
    ensures CountTrue(mask) + CountTrue(Negate(mask)) == |mask|
  {
    if |mask| > 0 {
      var n := |mask| - 1;
      NegatePrefix(mask, n);
      CountAndNegation(mask[..n]);
    }
  }

  /** The mask that evaluates `p` on every row. */
  function MaskOf<T>(rows: seq<T>, p: T -> bool): (m: seq<bool>)
    ensures |m| == |rows|
    ensures forall i :: 0 <= i < |rows| ==> m[i] == p(rows[i])
  {
    seq(|rows|, i requires 0 <= i < |rows| => p(rows[i]))
  }

  /** The rows satisfying `p`, in order. */
  function Filter<T>(rows: seq<T>, p: T -> bool): (r: seq<T>)
    ensures forall x :: x in r ==> x in rows && p(x)
    ensures forall x :: x in rows && p(x) ==> x in r
  {
    if |rows| == 0 then []
    else
      var n := |rows| - 1;
      assert rows == rows[..n] + [rows[n]];
      Filter(rows[..n], p) + (if p(rows[n]) then [rows[n]] else [])
  }

  lemma {:induction false} KeepMaskIsFilter<T>(rows: seq<T>, p: T -> bool)
    ensures Keep(rows, MaskOf(rows, p)) == Filter(rows, p)
  {
    if |rows| > 0 {
      var n := |rows| - 1;
      assert MaskOf(rows, p)[..n] == MaskOf(rows[..n], p);
      KeepMaskIsFilter(rows[..n], p);
    }
  }

  /** Filtering only looks at the predicate's values on the rows. */
  lemma {:induction false} FilterCongruent<T>(rows: seq<T>, p: T -> bool, q: T -> bool)
    requires forall i :: 0 <= i < |rows| ==> p(rows[i]) == q(rows[i])
    ensures Filter(rows, p) == Filter(rows, q)
  {
    if |rows| > 0 {
      FilterCongruent(rows[..|rows| - 1], p, q);
    }
  }

  /** Two filters in a row are one filter by the conjunction. */
  lemma {:induction false} FilterFilter<T>(rows: seq<T>, p: T -> bool, q: T -> bool)
    ensures Filter(Filter(rows, p), q) == Filter(rows, x => p(x) && q(x))
  {
    if |rows| > 0 {
      var n := |rows| - 1;
      FilterFilter(rows[..n], p, q);
      var pq := x => p(x) && q(x);
      var f := Filter(rows[..n], p);
      assert Filter(rows, pq) == Filter(rows[..n], pq) + (if pq(rows[n]) then [rows[n]] else []);
      assert Filter(f, q) == Filter(rows[..n], pq);
      if p(rows[n]) {
        var g := f + [rows[n]];
        assert Filter(rows, p) == g;
        assert g[..|g| - 1] == f;
        assert Filter(g, q) == Filter(f, q) + (if q(rows[n]) then [rows[n]] else []);
      } else {
        assert Filter(rows, p) == f;
      }
    }
  }
}

=== FILE: registry.dfy ===
/** Resolution of a correction name to the calibration value valid for a run
    (`Corrections.get_correction`). */
module Registry {
  import opened Wrappers

  /** What an entry stores under its `correction` key: a map file name, a
      number such as the simulated electron lifetime, or an explicit `None`.
      An entry without the key at all has `correction == None` instead. */
  datatype Value = Text(text: string) | Number(number: real) | Null

  /** One validity entry; each key may be absent. */
  datatype ValidityEntry = ValidityEntry(runMin: Option<int>, runMax: Option<int>, correction: Option<Value>)

  /** The `corrections_definitions` configuration key: `None` when the key is
      missing altogether, otherwise correction name -> ordered entries. */
  type Config = Option<map<string, seq<ValidityEntry>>>

  predicate Configured(cfg: Config, name: string) {
    cfg.Some? && name in cfg.value
  }

  /** The entries scanned for `name`; none when it is not configured. */
  function Entries(cfg: Config, name: string): seq<ValidityEntry> {
    if Configured(cfg, name) then cfg.value[name] else []
  }

  /** The run lies in the entry's interval. A missing `run_min` never matches;
      a missing `run_max` is no upper bound. */
  predicate InInterval(e: ValidityEntry, run: int) {
    && e.runMin.Some?
    && e.runMin.value <= run
    && (e.runMax.None? || run <= e.runMax.value)
  }

  /** The entry would be returned if the scan reached it. */
  predicate Qualifies(e: ValidityEntry, run: int) {
    InInterval(e, run) && e.correction.Some?
  }

  /** Entry `i` qualifies and no earlier entry does. */
  predicate IsFirstQualifying(entries: seq<ValidityEntry>, run: int, i: int) {
    && 0 <= i < |entries|
    && Qualifies(entries[i], run)
    && forall j :: 0 <= j < i ==> !Qualifies(entries[j], run)
  }

  /** The loop of `get_correction` from position `i` on, returning the index
      it stops at. */
  function FirstMatch(entries: seq<ValidityEntry>, run: int, i: nat): (r: Option<nat>)
    requires i <= |entries|
    ensures r.Some? ==> i <= r.value < |entries| && Qualifies(entries[r.value], run)
    ensures r.Some? ==> forall j :: i <= j < r.value ==> !Qualifies(entries[j], run)
    ensures r.None? ==> forall j :: i <= j < |entries| ==> !Qualifies(entries[j], run)
    decreases |entries| - i
  {
    if i == |entries| then None
    else
      var e := entries[i];
      if e.runMin.None? || run < e.runMin.value then
        FirstMatch(entries, run, i + 1)
      else if e.runMax.None? || run <= e.runMax.value then
        if e.correction.Some? then Some(i) else FirstMatch(entries, run, i + 1)
      else
        FirstMatch(entries, run, i + 1)
  }

  /** The correction value of the first qualifying entry, if any. */
  function Resolve(entries: seq<ValidityEntry>, run: int): (r: Option<Value>)
    ensures r.None? <==> forall j :: 0 <= j < |entries| ==> !Qualifies(entries[j], run)
    ensures r.Some? ==> exists i :: IsFirstQualifying(entries, run, i) && entries[i].correction == r
  {
    match FirstMatch(entries, run, 0)
    case None => None
    case Some(i) => entries[i].correction
  }

  /** `get_correction(name)` for the current run number. The caller sees
      Python's `None` both when the scan finds nothing and when it stops at an
      entry whose `correction` is an explicit `None`. */
  function GetCorrection(cfg: Config, name: string, run: int): (r: Option<Value>)
    ensures !Configured(cfg, name) ==> r.None?
    ensures r != Some(Null)
    ensures r.None? <==>
              || (forall j :: 0 <= j < |Entries(cfg, name)| ==> !Qualifies(Entries(cfg, name)[j], run))
              || (exists i :: IsFirstQualifying(Entries(cfg, name), run, i) && Entries(cfg, name)[i].correction == Some(Null))
    ensures r.Some? ==> exists i :: IsFirstQualifying(Entries(cfg, name), run, i) && Entries(cfg, name)[i].correction == r
  {
    if !Configured(cfg, name) then None
    else
      assert Entries(cfg, name) == cfg.value[name];
      var resolved := Resolve(cfg.value[name], run);
      if resolved.Some? then
        forall i | IsFirstQualifying(cfg.value[name], run, i)
          ensures cfg.value[name][i].correction == resolved
        {
          ResolveIsFirstQualifying(cfg.value[name], run, i);
        }
        if resolved == Some(Null) then None else resolved
      else
        resolved
  }

  /** At most one index is the first qualifying one. */
  lemma FirstQualifyingUnique(entries: seq<ValidityEntry>, run: int, i: int, k: int)
    requires IsFirstQualifying(entries, run, i)
    requires IsFirstQualifying(entries, run, k)
    ensures i == k
  {
  }

  /** The resolved value is exactly the payload of the first qualifying entry. */
  lemma ResolveIsFirstQualifying(entries: seq<ValidityEntry>, run: int, i: int)
    requires IsFirstQualifying(entries, run, i)
    ensures Resolve(entries, run) == entries[i].correction
  {
    var r := Resolve(entries, run);
    assert Qualifies(entries[i], run);
    var k :| IsFirstQualifying(entries, run, k) && entries[k].correction == r;
    FirstQualifyingUnique(entries, run, i, k);
  }

  /** Removing entry `k` from a list, as a helper for the transparency lemmas. */
  function Without(entries: seq<ValidityEntry>, k: nat): (r: seq<ValidityEntry>)
    requires k < |entries|
    ensures |r| == |entries| - 1
    ensures forall j :: 0 <= j < k ==> r[j] == entries[j]
    ensures forall j :: k <= j < |r| ==> r[j] == entries[j + 1]
  {
    entries[..k] + entries[k + 1..]
  }

  /** An entry that can never qualify (no `run_min`, or an interval match
      without `correction`) does not influence the result: dropping it from
      the list leaves the resolution unchanged. */
  lemma {:induction false} NonQualifyingEntryIsTransparent(entries: seq<ValidityEntry>, k: nat, run: int)
    requires k < |entries|
    requires !Qualifies(entries[k], run)
    ensures Resolve(Without(entries, k), run) == Resolve(entries, run)
  {
    var w := Without(entries, k);
    if forall j :: 0 <= j < |entries| ==> !Qualifies(entries[j], run) {
      forall j | 0 <= j < |w|
        ensures !Qualifies(w[j], run)
      {
        if j < k { assert w[j] == entries[j]; } else { assert w[j] == entries[j + 1]; }
      }
    } else {
      assert Resolve(entries, run).Some?;
      var i :| IsFirstQualifying(entries, run, i) && entries[i].correction == Resolve(entries, run);
      if i < k {
        assert w[i] == entries[i];
        assert IsFirstQualifying(w, run, i);
        ResolveIsFirstQualifying(w, run, i);
      } else {
        assert i != k;
        assert w[i - 1] == entries[i];
        forall j | 0 <= j < i - 1
          ensures !Qualifies(w[j], run)
        {
          if j < k { assert w[j] == entries[j]; } else { assert w[j] == entries[j + 1]; }
        }
        assert IsFirstQualifying(w, run, i - 1);
        ResolveIsFirstQualifying(w, run, i - 1);
      }
    }
  }

  /** An entry lacking `run_min` is never matched, whatever the run number. */
  lemma MissingRunMinNeverResolves(entries: seq<ValidityEntry>, k: nat, run: int)
    requires k < |entries|
    requires entries[k].runMin.None?
    ensures Resolve(Without(entries, k), run) == Resolve(entries, run)
  {
    NonQualifyingEntryIsTransparent(entries, k, run);
  }

  /** An interval-matching entry without `correction` does not stop the scan:
      the next qualifying entry is returned. */
  lemma PayloadlessMatchContinuesScan()
    ensures Resolve([ValidityEntry(Some(0), Some(10), None),
                     ValidityEntry(Some(0), Some(100), Some(Text("A")))], 5) == Some(Text("A"))
    ensures Resolve([ValidityEntry(None, Some(10), Some(Text("B")))], 0) == None
  {
    var es := [ValidityEntry(Some(0), Some(10), None),
               ValidityEntry(Some(0), Some(100), Some(Text("A")))];
    assert IsFirstQualifying(es, 5, 1);
    ResolveIsFirstQualifying(es, 5, 1);
  }

  /** An interval-matching entry whose `correction` is an explicit `None`
      does stop the scan: the later entry is never reached, and the caller
      sees `None`. */
  lemma ExplicitNoneStopsScan()
    ensures var es := [ValidityEntry(Some(0), None, Some(Null)),
                       ValidityEntry(Some(0), None, Some(Text("A")))];
            && Resolve(es, 5) == Some(Null)
            && GetCorrection(Some(map["fdc_3d" := es]), "fdc_3d", 5) == None
  {
    var es := [ValidityEntry(Some(0), None, Some(Null)),
               ValidityEntry(Some(0), None, Some(Text("A")))];
    assert IsFirstQualifying(es, 5, 0);
    ResolveIsFirstQualifying(es, 5, 0);
  }
}

=== FILE: wrappers.dfy ===
/** `Option` and `Result` for the modelled code's two kinds of outcome: a
    Python `None` next to a value, and a value next to a raised exception.
    Both work with `:-`, which stops at `None` or at the exception. */
module Wrappers {

  datatype Option<+T> = None | Some(value: T) {

    // The three hooks `:-` calls: stop here?, what to pass on, what to keep.
    predicate IsFailure() {
      None?
    }

    function PropagateFailure<U>(): Option<U>
      requires None?
    {
      None
    }

    function Extract(): T
      requires Some?
    {
      value
    }

    /** A missing value read as the exception `error`, as a Python lookup
        (`KeyError`, an unbound local) turns absence into a raise. */
    function ToResult<E>(error: E): Result<T, E> {
      match this
      case Some(v) => Success(v)
      case None => Failure(error)
    }
  }

  datatype Result<+T, +E> = Success(value: T) | Failure(error: E) {

    // The same three hooks: a raised exception passes through unchanged.
    predicate IsFailure() {
      Failure?
    }

    function PropagateFailure<U>(): Result<U, E>
      requires Failure?
    {
      Failure(error)
    }

    function Extract(): T
      requires Success?
    {
      value
    }
  }
}

/** The exceptions the modelled code can raise, one constructor per cause. */
module Errors {

  datatype Error =
      /** A resolved map name that the map loader cannot open (also a resolved `None` or number). */
    | MapLoadFailed(correction: string)
      /** `get_value` called on a cache slot that still holds no map. */
    | MapNotLoaded(correction: string)
      /** An interaction refers to a peak index outside the event's peak list. */
    | PeakMissing(index: nat)
      /** The simulated electron lifetime is not configured as a number. */
    | LifetimeNotNumeric
      /** The electron lifetime used as a divisor is zero. */
    | LifetimeZero
      /** The lifetime interpolant was asked for a time outside its table. */
    | LifetimeOutOfRange(ts: real)
      /** No neural-net reconstructed position exists for the main S2. */
    | NeuralNetPositionMissing
      /** `history` was asked about a dataset no cut was ever recorded for. */
    | NoCutHistory
}
